=== FILE: README.md ===
# IntelliJ plugin repository builder — Dafny model

`repo-builder.go` builds a self-hosted plugin repository for JetBrains IDEs.
It reads a list of catalog plugin ids and a list of local plugin archives. It
picks one release per catalog plugin, downloads or copies each artifact into
`<dir>/files`, merges all entries into one map keyed by plugin id, and writes
the `updatePlugins.xml` manifest. This project models that pipeline as pure
functions over immutable values and proves what it guarantees.

Modules, one per component of the program:

- `Records` (records.dfy): the configuration, catalog and manifest records, the constants `files` and `updatePlugins.xml`, and the configuration defaults.
- `Outcomes` (outcomes.dfy): the error kinds and the `Result` type. The program exits the process through `log.Fatal` on every error; here each such exit is a `Failure`.
- `VersionOrder` (version_order.dfy): Go's string comparison as a strict total order.
- `Paths` (paths.dfy): `filepath.Base`, `filepath.Join` with the lexical cleaning of `filepath.Clean` (empty and `.` elements dropped, `..` undoing the element before it), the artifact and manifest paths, and the file that `http.FileServer(http.Dir(dir))` answers for a URL: the path before any `?` or `#`, percent-decoded, cleaned as a rooted path and joined under the directory.
- `Catalog` (catalog.dfy): the three catalog URLs. The catalog's answers are a value keyed by URL: a missing URL is a failed request, and `None` is a body that did not decode.
- `Resolver` (resolver.dfy): release selection.
- `Merger` (merger.dfy): entry construction and the last-writer-wins map merge.
- `Manifest` (manifest.dfy): rendering, plus a small reader that gets the `id` and `url` attributes back out of a rendered line.
- `Files` (files.dfy): download, copy and exclusive create over a store from path to contents.
- `Builder` (builder.dfy): the orchestration (`processPlugin`, `buildRepository`) and the empty-configuration guard of `main`.

Go leaves map iteration order unspecified. Here an iteration order is any
sequence holding every key exactly once (`Manifest.Enumerates`). The build
renders with an arbitrary such order (`Builder.AnyOrder`, a ghost choice), and
every property is proved for all orders.

Behaviour of `repo-builder.go` that the model keeps:

- `downloadFile` sends its GET request before it checks whether the destination exists. A failed request therefore fails the build even when the artifact is already on disk. For an existing file only the copying of the body is skipped.
- `sort.Slice` is not stable in general, but on a list of at most twelve elements Go's sort falls back to insertion sort, which keeps equal elements in their order. The release list is requested with `size=8`. So the program takes the first-listed release among those of the greatest version, and `Resolver.Latest` does the same (`Resolver.LatestIsFirst`). Which file is downloaded, and so whether `Builder.ProcessPlugin` succeeds, depends on that tie-break. Example: the releases `2.0` as `a.jar` and `2.0` as `b.jar`, where only `b.jar` can be downloaded.
- The renderer always writes the `name`, `vendor` and `description` lines, even when a field is empty.
- An empty release list makes the program crash on `releases[0]`. Here it is the error `NoReleasesFound`.
- The manifest-exists check runs at the end, after every download and copy. A build against an output directory that already has a manifest therefore still writes artifacts, then fails. It never touches the existing manifest.
- A failed build leaves no manifest behind, and a successful one changes nothing outside `<dir>/files` except the manifest. This rests on every artifact name staying inside `<dir>/files`. The program does not check that for catalog release names. Here a release name with a `..` element is refused with `UnsafeArtifactName` (see "## Findings"), and `Builder.ProcessPluginAsWritten` keeps the unchecked version.
- A local archive whose last element is `.`, `..` or `/` names a directory. The program's copy then fails, because the destination cannot be created as a file or the source cannot be read. Here that is the error `NotARegularFile`.
- A local archive is looked up by its cleaned path (`Builder.ArchivePath`), the same way the store names the artifacts it writes. So `./out/files/a.jar` and `out/files/a.jar` are one file.
- The build copies local archives with the corrected copy `Files.CopyLocal` (see "## Findings"). It differs from the program's copy only when the archive is the file at its own destination, under whatever spelling (`Builder.CopyLocalPluginAsWrittenAgrees`).

## Model

| member | source | states |
|---|---|---|
| VersionOrder.BelowIrreflexive | repo-builder.go:165 | No version sorts strictly before itself. |
| VersionOrder.BelowAsymmetric | repo-builder.go:165 | If `a` sorts before `b`, then `b` does not sort before `a`. |
| VersionOrder.BelowTransitive | repo-builder.go:165 | The string order used to sort releases is transitive. |
| VersionOrder.BelowTotal | repo-builder.go:165 | Any two different version strings are comparable, so the sort is total. |
| VersionOrder.NotBelowIsAtMost | repo-builder.go:165 | "Not greater" under the sort's comparator means "before or equal". |
| Resolver.Latest | repo-builder.go:165-166 | Returns nothing exactly for an empty list; otherwise a release taken from the list. |
| Resolver.LatestIsLatest | repo-builder.go:165-166 | For a non-empty list, the selected release is in the list and no release has a greater version. |
| Resolver.LatestIsFirst | repo-builder.go:165-166 | Among releases of the greatest version, the selected one is listed first: every release before it has a smaller version. A stable sort, as Go's is on lists of up to twelve, puts that release at index 0. |
| Resolver.Select | repo-builder.go:164-166 | Fails with NoReleasesFound exactly when the list is empty; otherwise returns a member of the list with a greatest version. |
| Resolver.LatestVersionIsDetermined | repo-builder.go:165 | Any two greatest releases have the same version, so ties left by the unstable sort cannot change the published version. |
| Resolver.SortedHeadIsLatest | repo-builder.go:165-166 | The head of any permutation sorted with the comparator "greater version first" is a greatest release and has the version Select returns. |
| Resolver.TextualNotSemanticSelection | repo-builder.go:165 | Among versions "1.0", "2.0" and "10.0", the selected release is "2.0". |
| Catalog.PluginUrl | repo-builder.go:119 | The metadata URL is the API prefix, a slash, and the plugin id, and the id can be read back from it. |
| Catalog.ReleasesUrl | repo-builder.go:130 | The release-list URL is the metadata URL followed by `/updates?channel=&size=8`. |
| Catalog.DownloadUrl | repo-builder.go:167 | The download URL is the files prefix, a slash, and the release's file, and the file can be read back from it. |
| Catalog.CatalogUrlsInjective | repo-builder.go:119-130 | Different plugin ids are requested at different metadata URLs and release URLs, and different files at different download URLs. |
| Catalog.GetPlugin | repo-builder.go:118-127 | Succeeds exactly when the catalog answered the metadata URL with a decodable record, and returns that record. Otherwise the error names the URL: `CatalogUnavailable` when the request failed, `MalformedResponse` when the answer did not decode. |
| Catalog.GetPluginReleases | repo-builder.go:129-138 | Same as GetPlugin, for the release-list URL. |
| Catalog.AnswerIsFetched | repo-builder.go:118-138 | Fetching a plugin's metadata or release list returns exactly the record the catalog answered at that plugin's URL. |
| Catalog.AnswersAreSeparate | repo-builder.go:118-138 | Changing the catalog's answer for one plugin leaves what is fetched for every other plugin unchanged. |
| Paths.Base | repo-builder.go:190 | The last path element is never empty. It contains no separator unless it is "/". A non-empty name without separators is its own last element. |
| Paths.BaseIsLastElement | repo-builder.go:190 | Once trailing separators are dropped, the last element is the last of the path's `/`-separated elements. |
| Paths.BaseOfChild | repo-builder.go:190 | The last element of `dir/name` is `name`, for any directory and any non-empty name without separators. |
| Paths.BaseIdempotent | repo-builder.go:242 | Taking the last element of a last element changes nothing. |
| Paths.SplitJoinWithSlash | repo-builder.go:168 | Splitting a path joined from separator-free elements gives back those elements. |
| Paths.JoinWithSlashSplit | repo-builder.go:168 | Joining a path's elements with single separators gives back the path. |
| Paths.SplitAppend | repo-builder.go:168 | The elements of `a/b` are the elements of `a` followed by those of `b`. |
| Paths.CleanIdempotent | repo-builder.go:168 | Cleaning a cleaned path changes nothing. |
| Paths.Join | repo-builder.go:168 | A join is empty exactly when all its elements are empty. |
| Paths.CleanPlainName | repo-builder.go:191 | A single file name is already clean, so it names itself in the store. |
| Paths.CleanDotSlash | repo-builder.go:191 | A leading `./` does not change which file a relative path names. |
| Paths.DotSpelledArtifact | repo-builder.go:190-191 | Below a relative output directory, `./<dir>/files/<name>` names the artifact path of `name`, and its last element is `name`. |
| Paths.OutputTreeShape | repo-builder.go:168 | The artifact directory and the manifest are the cleaned output directory followed by `files` and by `updatePlugins.xml`. An artifact name without `..` elements lands in the artifact directory at its name with empty and `.` elements dropped. |
| Paths.PlainArtifactPath | repo-builder.go:190 | A single file name lands at `<files dir>/<name>`. |
| Paths.ArtifactsAvoidManifest | repo-builder.go:267 | Every artifact whose name has no `..` element lands at or below the artifact directory. The manifest lies outside it, so such an artifact never has the manifest's path. |
| Paths.ParentElementReachesManifest | repo-builder.go:168 | For every output directory, the artifact name `../updatePlugins.xml` is joined to exactly the manifest's path, and the name has a `..` element. |
| Paths.PathPart | repo-builder.go:273 | The path part of a URL is a prefix without `?` or `#`, and it stops only at one of them or at the end. |
| Paths.PathPartStops | repo-builder.go:273 | A query or fragment appended to a path without `?` or `#` does not change its path part. |
| Paths.PercentDecode | repo-builder.go:273 | A path without `%` decodes to itself, and decoding never lengthens a path. |
| Paths.ServedPath | repo-builder.go:273 | A URL is answered only when it lies below the server's address. |
| Paths.ServedUrlIsArtifact | repo-builder.go:252-253 | Served from the output directory, the manifest address `<serverUrl>/files/<file>` names exactly the path where artifact `<file>` was written, for every name without `..` elements and without `%`, `?` or `#`. |
| Paths.FragmentInFileName | repo-builder.go:252-253 | The manifest address of an artifact named `a#1.jar` is answered with the file `a`, which is not where that artifact was written. |
| Merger.RemoteEntry | repo-builder.go:173-185 | A remote entry keeps the catalog plugin and the selected release without loss, and its vendor fields are empty. |
| Merger.LocalEntry | repo-builder.go:233-247 | A local entry keeps every field of the local plugin except the archive path, which is reduced to its last element. Both numeric ids are zero. |
| Merger.InsertAll | repo-builder.go:173 | Inserting entries in order gives a map whose keys are the old keys plus the entries' ids. Every value is an old value or one of the inserted entries. |
| Merger.InsertAllLastWins | repo-builder.go:221-227 | For each id, the last entry inserted with that id is the value kept. |
| Merger.InsertAllKeepsOthers | repo-builder.go:228-248 | An id that no inserted entry carries keeps its previous value, or stays absent. |
| Merger.Merge | repo-builder.go:219-248 | The merged keys are exactly the remote entries' ids plus the local plugins' ids. Every entry sits under its own id, and every value is a remote entry or built from a local plugin. |
| Merger.LocalWins | repo-builder.go:228-248 | Under a local plugin's id, the map holds the entry built from the last local plugin with that id, whatever the remote entries were. |
| Merger.RemoteKept | repo-builder.go:228-248 | An id with no local plugin is present exactly when some remote entry has it, and keeps the value the remote insertions left. |
| Merger.RemoteLastWins | repo-builder.go:221-227 | Among remote plugins with the same id, the last one processed is kept, unless a local plugin replaces it. |
| Manifest.Block | repo-builder.go:251-264 | Every entry is written as exactly six lines. |
| Manifest.EnumerationFacts | repo-builder.go:250 | An iteration order has exactly as many elements as the map has keys, and holds exactly its keys. |
| Manifest.RenderLines | repo-builder.go:249-266 | The manifest has 6 lines per map entry plus 2. It starts with the XML header and `<plugins>` and ends with `</plugins>`. |
| Manifest.RenderedBlock | repo-builder.go:250-265 | Lines `1+6i` to `6+6i` are the block of the i-th key in the iteration order. |
| Manifest.Render | repo-builder.go:249 | The document begins with the XML declaration and the `<plugins>` opening. |
| Manifest.OpenTagRoundTrip | repo-builder.go:252-253 | Reading a plugin opening tag back gives the entry's id and the address `serverUrl/files/<file>`, as long as neither contains a double quote. |
| Manifest.RenderedOpenTag | repo-builder.go:252-253 | The opening tag of the i-th block reads back as the i-th key and that entry's download address. |
| Manifest.RenderedIdsAreKeys | repo-builder.go:249-266 | There is one plugin element per map key. The ids read back from the opening tags are the keys, each once. Each `url` reads back as `serverUrl + "/files/" + file`. |
| Manifest.MapSeqPermutation | repo-builder.go:250 | Mapping two permutations of the keys gives two permutations of the results. |
| Manifest.RenderOrderIndependent | repo-builder.go:250 | Any two iteration orders produce the same blocks, only arranged differently. |
| Files.DownloadFile | repo-builder.go:140-160 | Fails exactly when the request fails, even if the file exists. On success the destination exists, nothing else changes, an existing destination is left untouched, and a new one receives the response body. |
| Files.DownloadIdempotent | repo-builder.go:146-159 | A second download to the same destination changes nothing, whatever body it receives. |
| Files.CopyLocalAsWritten | repo-builder.go:191-202 | The copy as written fails exactly when the source is missing. It changes only the destination, which gets the source's contents when source and destination are different files (different store keys). |
| Files.SelfCopyTruncates | repo-builder.go:191-202 | Copying an archive onto its own path leaves it empty. |
| Files.CopyLocal | repo-builder.go:189-204 | The copy fails exactly when the source is missing. Otherwise the destination always ends up with the source's contents, and nothing else changes. |
| Files.CopyOverwritesDownloadKeeps | repo-builder.go:146-197 | When the destination exists with other contents, a copy replaces it and a download leaves it unchanged. |
| Files.WriteExclusive | repo-builder.go:206-210 | Creating the manifest fails exactly when it already exists, and then changes nothing. Otherwise it creates the manifest with the given text and changes nothing else. |
| Builder.ProcessPlugin | repo-builder.go:162-187 | Succeeds exactly when the catalog answers the metadata, release-list and download requests, the release list is not empty, and the greatest release's file name has no `..` element and names something inside the artifact directory. On success the entry was built from the catalog's metadata and a greatest release, and its artifact is stored under that name. A failure writes nothing. Only `<dir>/files` changes. |
| Builder.ProcessPluginAsWritten | repo-builder.go:162-187 | The program's version: on success the entry was built from the catalog's metadata and a greatest release, its artifact path exists, and nothing else changed. A failure writes nothing. |
| Builder.ProcessPluginAsWrittenAgrees | repo-builder.go:162-187 | The program's version and the corrected one give the same files and result on every input the corrected one does not refuse for its file name. |
| Builder.ReleaseFileReachesManifest | repo-builder.go:167-168 | When the greatest release is filed as `../updatePlugins.xml`, the program's version succeeds and writes the manifest's path, after which creating the manifest fails. The corrected version refuses the release and writes nothing. |
| Builder.EscapingCatalogExists | repo-builder.go:162-168 | A one-plugin catalog whose only release is filed as `../updatePlugins.xml` makes the program's version write the manifest's path, for every output directory. |
| Builder.ProcessPluginErrors | repo-builder.go:163-170 | A failure carries the error of the first failed step, in the order metadata, release list, selection (NoReleasesFound), file name (UnsafeArtifactName), download. |
| Builder.ProcessPluginFailureIgnoresFiles | repo-builder.go:162-172 | Whether a plugin fails, and with which error, does not depend on the files already on disk. |
| Builder.FetchAll | repo-builder.go:221-227 | Catalog plugins are processed in order. On success there is one resolved entry per id, in order, each with its artifact on disk. Only `<dir>/files` changes. |
| Builder.FetchAllOutcome | repo-builder.go:221-227 | The loop succeeds exactly when the catalog answers for every plugin. Otherwise it fails with the error of the first plugin it does not answer for. |
| Builder.CopyLocalPlugin | repo-builder.go:189-204 | Fails exactly when the archive, looked up by its cleaned path, is missing (reported first) or its last element is `.`, `..` or `/`. On success the destination `<dir>/files/<Base(file)>` holds the archive's contents, and only `<dir>/files` changes. |
| Builder.CopyLocalPluginAsWritten | repo-builder.go:189-204 | The program's version: the same failures, and on success only the destination changes. |
| Builder.CopyLocalPluginAsWrittenAgrees | repo-builder.go:189-204 | The two versions agree unless the archive is the file at its destination, under any spelling. There the program empties a non-empty archive and the corrected version keeps its bytes. |
| Builder.AliasedSelfCopyTruncates | repo-builder.go:190-202 | In a build into a relative directory such as `out`, a local archive spelled `./out/files/<name>` holding bytes is emptied by the program and kept by the corrected copy. |
| Builder.CopyLocalPluginLater | repo-builder.go:189-204 | A copy against a store that has only grown fails only with an error it would give against the earlier store, and never for an archive ready there. |
| Builder.CopyAll | repo-builder.go:228-232 | Local archives are copied in order. It succeeds whenever every archive is ready beforehand, and then every one is stored at `<dir>/files/<Base(file)>`. A failure names an archive that was missing, or whose last element names a directory. Only `<dir>/files` changes. |
| Builder.MergedEntries | repo-builder.go:221-248 | The merged keys are the ids the catalog gives the plugins plus the local ids. Local plugins win, and every other entry is a resolved catalog entry. |
| Builder.MergedArtifacts | repo-builder.go:168-190 | Every merged entry's artifact is stored when every fetched and copied artifact is. |
| Builder.Collect | repo-builder.go:219-248 | Everything before the manifest. It needs every catalog plugin answered for, and succeeds whenever in addition every archive is ready. On success the map has the right keys, local wins, resolved catalog entries, and a stored artifact for every entry. Only `<dir>/files` changes. |
| Builder.Publish | repo-builder.go:249-267 | Fails exactly when a manifest already exists, writing nothing. Otherwise it creates the manifest rendered from the map in some iteration order, and changes nothing else. |
| Builder.Build | repo-builder.go:292-297 | With no plugins configured the build is refused before anything happens. A success needs every catalog plugin answered for and no existing manifest, and it happens whenever in addition every archive is ready. A failed build changes only `<dir>/files` and leaves no manifest where there was none. A successful one adds the manifest and otherwise changes only `<dir>/files`. |
| Builder.BuildSucceeds | repo-builder.go:219-269 | A successful build wrote the manifest rendered from its map. The map holds exactly the catalog and local plugins, with local wins. Every entry's artifact is stored, and for a file name without `%`, `?` or `#` it is exactly what the entry's manifest address serves. |
| Builder.ServedArtifacts | repo-builder.go:252-253 | Every stored entry whose file name has no `%`, `?` or `#` is served at its manifest address from the path it was written to. |
| Builder.LocalOnlyBuildSucceeds | repo-builder.go:292-297 | A configuration with one existing local archive and no catalog plugins builds successfully into any output directory, so a successful build is reachable. |
| Files.CopyAsWrittenAgrees | repo-builder.go:189-204 | On store keys, which are cleaned paths, the program's copy and the corrected copy agree unless an archive is copied onto itself. There they differ for any non-empty archive. `Builder.CopyLocalPluginAsWrittenAgrees` lifts this to every spelling of the archive's path. |

## Left out

- HTTP transport, including the 2-second client timeout and `startHttpServer`. The catalog's answers are the value `Catalog.Remote`. The static server appears only as `Paths.ServedPath`, which assumes `serverUrl` is the root the output directory is served at.
- JSON and YAML decoding and `readConfig`. Decoded records are given; an undecodable body is `None`. Only the configuration defaults are kept, as `Records.DefaultConfig`.
- Process exit through `log.Fatal`, log messages, and flag parsing. `main` is modelled only for its empty-configuration guard, in `Builder.Build`.
- Directory creation (`os.MkdirAll`). The file store has no directories, so the model does not say what the program does with a release file name that names the artifact directory itself (empty, or only `.` elements). The corrected `Builder.ProcessPlugin` refuses such a name with the `..` names; the as-written version writes a file at that path. A local archive naming a directory fails without writing, whereas the program may leave an empty file behind.
- Percent-decoding yields bytes; here each decoded byte becomes one character, with no UTF-8 decoding.
- Errors in the middle of a stream copy (`io.Copy`), which leave a partial file. Buffered-writer errors while writing the manifest, which the program ignores. Both are I/O failures outside the model.
- Paths.Join: models only slash-separated paths (Unix). Files are told apart by their cleaned paths, both artifacts and local archives.
- Builder.Build: the manifest's contents are stated only up to the map's iteration order, because Go leaves that order unspecified.
- Manifest.RenderedIdsAreKeys: only holds for ids and addresses without a double quote, because the renderer escapes nothing. The same goes for `]]>` in descriptions.
- Resolver.Select: promises a greatest release. Which one of several with equal versions is fixed by `Resolver.LatestIsFirst`, not by Select's contract.
- Builder.ProcessPlugin: the error value keeps the failing URL, not the formatted log message.
- Builder.ProcessPlugin: takes the first-listed release among those of the greatest version. For a release list longer than twelve, Go's sort gives no such guarantee, and the program may download a different file of the same version.
- Builder.CopyLocalPlugin: finds the archive by its lexically cleaned path. The kernel resolves `..` through the directories that exist and through symbolic links. It refuses a trailing `/` after a regular file. It also relates relative and absolute spellings through the working directory. None of these is modelled.
- Files.CopyAsWrittenAgrees: an archive that reaches its destination only through a symbolic link or an absolute spelling counts as a different file here. So the truncation is not shown for it.
- Builder.CopyAll: copies with the corrected `Files.CopyLocal`, so a local archive that is the file `<dir>/files/<Base(file)>`, under any spelling, keeps its bytes here, while the program empties it (see "## Findings"). Everywhere else the two copies agree (`Builder.CopyLocalPluginAsWrittenAgrees`).
- Builder.CopyAll: succeeds whenever every archive is ready beforehand, but the converse is not stated: an archive that only appears during the build, downloaded by an earlier step, also lets it succeed.

- Paths.ArtifactsAvoidManifest: stated only for artifact names without a `..` element. `Paths.ParentElementReachesManifest` shows a name with one can reach the manifest.
- Builder.ProcessPlugin: refuses a release file name with a `..` element, or one naming the artifact directory itself, where the program downloads it anyway (see "## Findings"). Its containment guarantee (only `<dir>/files` changes) rests on that refusal.
- Builder.FetchAll: only `<dir>/files` changes because every plugin goes through the corrected `Builder.ProcessPlugin`. The program, through `Builder.ProcessPluginAsWritten`, can write outside it.
- Builder.Collect: its containment guarantee rests on the same refusal, via `Builder.FetchAll`.
- Builder.Build: its guarantees that a failed build leaves no manifest and that only `<dir>/files` changes rest on the same refusal. `Builder.ReleaseFileReachesManifest` shows the program can make the manifest's creation fail.
- Paths.ServedUrlIsArtifact: stated only for file names without `%`, `?` or `#`, because the file server percent-decodes the path and cuts it at a query or fragment. `Paths.FragmentInFileName` shows a name with `#` is served from a different file.
- Builder.BuildSucceeds: the served-address clause is stated only for file names without `%`, `?` or `#`, for the same reason.

## Findings

| source | as written | input that shows it | evidently intended | confidence | as-written member | corrected member |
|---|---|---|---|---|---|---|
| repo-builder.go:167-168 | `processPlugin` joins the catalog's release file name into the download path unchecked. `filepath.Join` cleans the path, so `..` elements climb out of `<dir>/files`. | a catalog whose greatest release is filed as `../updatePlugins.xml`: the artifact is written at `<dir>/updatePlugins.xml`, and the final `O_EXCL` create of the manifest fails (`Builder.ReleaseFileReachesManifest`, `Builder.EscapingCatalogExists`) | artifacts stay inside `<dir>/files`, as the manifest's `url` attributes assume | medium; not executed | Builder.ProcessPluginAsWritten | Builder.ProcessPlugin |
| repo-builder.go:191-202 | `copyLocalPlugin` opens the archive, then `os.Create` truncates the destination, then copies. When the two are the same file, the source is truncated before it is read. | `dir: out` and a local plugin with `file: out/files/a.jar` or `./out/files/a.jar`: the archive becomes empty (`Files.SelfCopyTruncates`, `Builder.AliasedSelfCopyTruncates`) | the destination holds the archive's bytes, as it does for every other path | medium; not executed | Builder.CopyLocalPluginAsWritten | Builder.CopyLocalPlugin |

`Builder.CopyAll` uses the corrected `Builder.CopyLocalPlugin`, built on `Files.CopyLocal`. `Builder.CopyLocalPluginAsWrittenAgrees` shows it differs from the program's `Builder.CopyLocalPluginAsWritten` only when the archive is its own destination. `Builder.FetchAll` uses the corrected `Builder.ProcessPlugin`; `Builder.ProcessPluginAsWrittenAgrees` shows the two differ only on the release names it refuses.

=== FILE: builder.dfy ===
/** The build: every catalog plugin is resolved and downloaded in order, every
    local plugin is copied in order, the entries are merged, and the manifest
    is rendered and created. The first failure ends the build; artifacts
    already written stay where they are. */
module Builder {
  import opened Records
  import opened Outcomes
  import opened Paths
  import opened Catalog
  import opened Resolver
  import opened Merger
  import opened Manifest
  import opened Files

  /** The file store after a stage, and what the stage produced. */
  datatype Step<T> = Step(files: FileStore, result: Result<T>)

  /** Only the artifact directory changes: every file present before is still
      present, those outside the artifact directory are unchanged, and every
      new file lies inside it. */
  ghost predicate KeepsOutsideFilesDir(outputDir: string, before: FileStore, after: FileStore) {
    && before.Keys <= after.Keys
    && (forall p :: p in after && p !in before ==> UnderFilesDir(outputDir, p))
    && forall p :: p in before && !UnderFilesDir(outputDir, p) ==> after[p] == before[p]
  }

  /** `p` is the artifact directory of `outputDir` or lies below it. */
  ghost predicate UnderFilesDir(outputDir: string, p: string) {
    Under(FilesDir(outputDir), p)
  }

  /** The artifact `file` was written where it belongs: its name is safe,
      and its path below the artifact directory exists. */
  ghost predicate Stored(outputDir: string, file: string, files: FileStore) {
    SafeArtifactName(file) && ArtifactPath(outputDir, file) in files
  }

  /** Changing one artifact path keeps everything outside the artifact
      directory, as long as the name has no `..` element. */
  lemma ArtifactWriteKeeps(outputDir: string, file: string, before: FileStore, after: FileStore)
    requires Confined(file)
    requires SameExcept(before, after, ArtifactPath(outputDir, file))
    requires ArtifactPath(outputDir, file) in after
    ensures KeepsOutsideFilesDir(outputDir, before, after)
  {
    ArtifactsAvoidManifest(outputDir, file);
  }

  lemma KeepsOutsideFilesDirTransitive(outputDir: string, a: FileStore, b: FileStore, c: FileStore)
    requires KeepsOutsideFilesDir(outputDir, a, b) && KeepsOutsideFilesDir(outputDir, b, c)
    ensures KeepsOutsideFilesDir(outputDir, a, c)
  {
  }

  /** A stage that only touches the artifact directory leaves the manifest
      absent when it was absent. */
  lemma KeepsManifestAbsent(outputDir: string, before: FileStore, after: FileStore)
    requires KeepsOutsideFilesDir(outputDir, before, after)
    ensures ManifestPath(outputDir) !in before ==> ManifestPath(outputDir) !in after
  {
    ArtifactsAvoidManifest(outputDir, "");
  }

  /** `e` is the entry for catalog plugin `pluginId`: built from the metadata
      the catalog returned and from a greatest release of its release list. */
  ghost predicate ResolvedFrom(remote: Remote, pluginId: string, e: PluginDto) {
    && GetPlugin(remote, pluginId).Success?
    && GetPluginReleases(remote, pluginId).Success?
    && e == RemoteEntry(GetPlugin(remote, pluginId).value, ReleaseOf(e))
    && IsLatest(ReleaseOf(e), GetPluginReleases(remote, pluginId).value)
  }

  /** The artifact store's answer to a download request. */
  function Fetch(remote: Remote, url: string): Option<seq<Byte>> {
    if url in remote.artifacts then Some(remote.artifacts[url]) else None
  }

  /** The catalog answers every request `ProcessPlugin` makes for
      `pluginId` in a way it can use: the metadata and the release list
      decode, the list is not empty, the greatest release's file name is
      safe, and its artifact can be downloaded. */
  predicate Available(remote: Remote, pluginId: string) {
    && GetPlugin(remote, pluginId).Success?
    && GetPluginReleases(remote, pluginId).Success?
    && |GetPluginReleases(remote, pluginId).value| > 0
    && SafeArtifactName(Latest(GetPluginReleases(remote, pluginId).value).value.file)
    && DownloadUrl(Latest(GetPluginReleases(remote, pluginId).value).value.file) in remote.artifacts
  }

  /** Resolves one catalog plugin and downloads its artifact. It succeeds
      exactly when the catalog answers every request usably; otherwise it
      reports the first step that failed, in the order metadata, release
      list, selection, file name, download, and writes nothing. A release
      whose file name would leave the artifact directory is refused (see
      "## Findings" in the README; `ProcessPluginAsWritten` is the program's
      version). */
  function ProcessPlugin(remote: Remote, outputDir: string, fs: FileStore, pluginId: string): (s: Step<PluginDto>)
    ensures s.result.Success? <==> Available(remote, pluginId)
    ensures s.result.Success? ==> ResolvedFrom(remote, pluginId, s.result.value)
    ensures s.result.Success? ==> Stored(outputDir, s.result.value.release.file, s.files)
    ensures s.result.Failure? ==> s.files == fs
    ensures KeepsOutsideFilesDir(outputDir, fs, s.files)
  {
    match GetPlugin(remote, pluginId)
    case Failure(e) => Step(fs, Failure(e))
    case Success(plugin) =>
      match GetPluginReleases(remote, pluginId)
      case Failure(e) => Step(fs, Failure(e))
      case Success(releases) =>
        match Select(pluginId, releases)
        case Failure(e) => Step(fs, Failure(e))
        case Success(r) =>
          if !SafeArtifactName(r.file) then Step(fs, Failure(UnsafeArtifactName(r.file)))
          else
            var url := DownloadUrl(r.file);
            var dest := ArtifactPath(outputDir, r.file);
            match DownloadFile(fs, dest, url, Fetch(remote, url))
            case Failure(e) => Step(fs, Failure(e))
            case Success(files) =>
              ArtifactWriteKeeps(outputDir, r.file, fs, files);
              Step(files, Success(RemoteEntry(plugin, r)))
  }

  /** `processPlugin` as the program writes it: the release's file name goes
      into the download path unchecked. It changes only that path, which
      need not lie in the artifact directory. */
  function ProcessPluginAsWritten(remote: Remote, outputDir: string, fs: FileStore, pluginId: string)
    : (s: Step<PluginDto>)
    ensures s.result.Success? ==> ResolvedFrom(remote, pluginId, s.result.value)
    ensures s.result.Success? ==>
              && ArtifactPath(outputDir, s.result.value.release.file) in s.files
              && SameExcept(fs, s.files, ArtifactPath(outputDir, s.result.value.release.file))
    ensures s.result.Failure? ==> s.files == fs
  {
    match GetPlugin(remote, pluginId)
    case Failure(e) => Step(fs, Failure(e))
    case Success(plugin) =>
      match GetPluginReleases(remote, pluginId)
      case Failure(e) => Step(fs, Failure(e))
      case Success(releases) =>
        match Select(pluginId, releases)
        case Failure(e) => Step(fs, Failure(e))
        case Success(r) =>
          var url := DownloadUrl(r.file);
          var dest := ArtifactPath(outputDir, r.file);
          match DownloadFile(fs, dest, url, Fetch(remote, url))
          case Failure(e) => Step(fs, Failure(e))
          case Success(files) => Step(files, Success(RemoteEntry(plugin, r)))
  }

  /** The program's version and the corrected one agree on every input the
      corrected one does not refuse for its file name. */
  lemma ProcessPluginAsWrittenAgrees(remote: Remote, outputDir: string, fs: FileStore, pluginId: string)
    ensures var s := ProcessPlugin(remote, outputDir, fs, pluginId);
            !(s.result.Failure? && s.result.error.UnsafeArtifactName?) ==>
              ProcessPluginAsWritten(remote, outputDir, fs, pluginId) == s
  {
  }

  /** A catalog whose greatest release is filed as `../updatePlugins.xml`
      makes the program download that artifact over the manifest's path:
      the manifest can then no longer be created. The corrected version
      refuses the release and writes nothing. */
  lemma ReleaseFileReachesManifest(remote: Remote, outputDir: string, fs: FileStore, pluginId: string,
                                   serverUrl: string, m: map<string, PluginDto>)
    requires GetPlugin(remote, pluginId).Success? && GetPluginReleases(remote, pluginId).Success?
    requires var rs := GetPluginReleases(remote, pluginId).value;
             |rs| > 0 && Latest(rs).value.file == "../" + ManifestFileName
    requires DownloadUrl("../" + ManifestFileName) in remote.artifacts
    requires ManifestPath(outputDir) !in fs
    ensures var s := ProcessPluginAsWritten(remote, outputDir, fs, pluginId);
            && s.result.Success?
            && ManifestPath(outputDir) in s.files
            && Publish(serverUrl, outputDir, s.files, m).result == Failure(ManifestAlreadyExists(ManifestPath(outputDir)))
    ensures ProcessPlugin(remote, outputDir, fs, pluginId) == Step(fs, Failure(UnsafeArtifactName("../" + ManifestFileName)))
  {
    ParentElementReachesManifest(outputDir);
  }

  /** A catalog that meets the conditions of `ReleaseFileReachesManifest`. */
  lemma EscapingCatalogExists(outputDir: string)
    ensures var release := PluginRelease(1, "1.0", "", "", "../" + ManifestFileName);
            var remote := Remote(map[PluginUrl("p") := Some(Plugin(1, "p", "p", ""))],
                                 map[ReleasesUrl("p") := Some([release])],
                                 map[DownloadUrl("../" + ManifestFileName) := [1]]);
            var s := ProcessPluginAsWritten(remote, outputDir, map[], "p");
            s.result.Success? && ManifestPath(outputDir) in s.files
  {
    var release := PluginRelease(1, "1.0", "", "", "../" + ManifestFileName);
    var remote := Remote(map[PluginUrl("p") := Some(Plugin(1, "p", "p", ""))],
                         map[ReleasesUrl("p") := Some([release])],
                         map[DownloadUrl("../" + ManifestFileName) := [1]]);
    assert Latest([release]).value == release;
    ReleaseFileReachesManifest(remote, outputDir, map[], "p", "", map[]);
  }

  /** The error of a failed `ProcessPlugin` is that of the first step that
      failed, in the order metadata, release list, selection, the check of
      the release's file name, download. */
  lemma ProcessPluginErrors(remote: Remote, outputDir: string, fs: FileStore, pluginId: string)
    ensures var s, meta := ProcessPlugin(remote, outputDir, fs, pluginId), GetPlugin(remote, pluginId);
            meta.Failure? ==> s.result == Failure(meta.error)
    ensures var s, meta, rels :=
              ProcessPlugin(remote, outputDir, fs, pluginId), GetPlugin(remote, pluginId), GetPluginReleases(remote, pluginId);
            meta.Success? && rels.Failure? ==> s.result == Failure(rels.error)
    ensures var s, meta, rels :=
              ProcessPlugin(remote, outputDir, fs, pluginId), GetPlugin(remote, pluginId), GetPluginReleases(remote, pluginId);
            meta.Success? && rels.Success? && |rels.value| == 0 ==> s.result == Failure(NoReleasesFound(pluginId))
    ensures var s, meta, rels :=
              ProcessPlugin(remote, outputDir, fs, pluginId), GetPlugin(remote, pluginId), GetPluginReleases(remote, pluginId);
            meta.Success? && rels.Success? && |rels.value| > 0 && !SafeArtifactName(Latest(rels.value).value.file) ==>
              s.result == Failure(UnsafeArtifactName(Latest(rels.value).value.file))
    ensures var s, meta, rels :=
              ProcessPlugin(remote, outputDir, fs, pluginId), GetPlugin(remote, pluginId), GetPluginReleases(remote, pluginId);
            meta.Success? && rels.Success? && |rels.value| > 0 && SafeArtifactName(Latest(rels.value).value.file)
              && !Available(remote, pluginId) ==>
              s.result == Failure(DownloadFailed(DownloadUrl(Latest(rels.value).value.file)))
  {
  }

  /** Whether a catalog plugin fails, and with which error, depends only on
      the catalog's answers, not on the files already on disk. */
  lemma ProcessPluginFailureIgnoresFiles(remote: Remote, outputDir: string, fs1: FileStore, fs2: FileStore, pluginId: string)
    ensures ProcessPlugin(remote, outputDir, fs1, pluginId).result.Failure? ==>
              ProcessPlugin(remote, outputDir, fs1, pluginId).result == ProcessPlugin(remote, outputDir, fs2, pluginId).result
  {
    ProcessPluginErrors(remote, outputDir, fs1, pluginId);
    ProcessPluginErrors(remote, outputDir, fs2, pluginId);
  }

  /** Every catalog plugin in `ids` is answered for. */
  ghost predicate AllAvailable(remote: Remote, ids: seq<string>) {
    forall i :: 0 <= i < |ids| ==> Available(remote, ids[i])
  }

  lemma AllAvailablePrefix(remote: Remote, ids: seq<string>, n: int)
    requires 0 <= n <= |ids|
    ensures AllAvailable(remote, ids) ==> AllAvailable(remote, ids[..n])
  {
    if AllAvailable(remote, ids) {
      forall i | 0 <= i < n ensures Available(remote, ids[..n][i]) {
        assert ids[..n][i] == ids[i];
      }
    }
  }

  lemma AllAvailableSnoc(remote: Remote, ids: seq<string>, n: int)
    requires n == |ids| - 1 >= 0
    ensures AllAvailable(remote, ids) <==> AllAvailable(remote, ids[..n]) && Available(remote, ids[n])
  {
    AllAvailablePrefix(remote, ids, n);
    if AllAvailable(remote, ids[..n]) && Available(remote, ids[n]) {
      forall i | 0 <= i < |ids| ensures Available(remote, ids[i]) {
        if i < n { assert ids[..n][i] == ids[i]; }
      }
    }
  }

  /** `ids[i]` is the first plugin of `ids` the catalog does not answer for. */
  ghost predicate FirstUnavailable(remote: Remote, ids: seq<string>, i: int) {
    && 0 <= i < |ids|
    && !Available(remote, ids[i])
    && AllAvailable(remote, ids[..i])
  }

  lemma FirstUnavailablePrefix(remote: Remote, outputDir: string, fs: FileStore, ids: seq<string>, n: int, e: BuildError)
    requires 0 <= n <= |ids|
    requires exists i :: FirstUnavailable(remote, ids[..n], i)
               && e == ProcessPlugin(remote, outputDir, fs, ids[..n][i]).result.error
    ensures exists i :: FirstUnavailable(remote, ids, i)
              && e == ProcessPlugin(remote, outputDir, fs, ids[i]).result.error
  {
    var i :| FirstUnavailable(remote, ids[..n], i)
               && e == ProcessPlugin(remote, outputDir, fs, ids[..n][i]).result.error;
    assert ids[..n][i] == ids[i];
    assert ids[..n][..i] == ids[..i];
    assert FirstUnavailable(remote, ids, i);
  }

  /** `es` are the resolved entries of `ids`, with their artifacts in `files`. */
  ghost predicate Fetched(remote: Remote, outputDir: string, ids: seq<string>, es: seq<PluginDto>, files: FileStore) {
    && |es| == |ids|
    && (forall i :: 0 <= i < |ids| ==> ResolvedFrom(remote, ids[i], es[i]))
    && (forall i :: 0 <= i < |ids| ==> Stored(outputDir, es[i].release.file, files))
  }

  lemma FetchedSnoc(remote: Remote, outputDir: string, ids: seq<string>, es: seq<PluginDto>, e: PluginDto,
                    before: FileStore, after: FileStore)
    requires |ids| > 0
    requires Fetched(remote, outputDir, ids[..|ids| - 1], es, before)
    requires ResolvedFrom(remote, ids[|ids| - 1], e) && Stored(outputDir, e.release.file, after)
    requires before.Keys <= after.Keys
    ensures Fetched(remote, outputDir, ids, es + [e], after)
  {
    var n := |ids| - 1;
    forall i | 0 <= i < |ids|
      ensures ResolvedFrom(remote, ids[i], (es + [e])[i])
      ensures Stored(outputDir, (es + [e])[i].release.file, after)
    {
      if i < n {
        assert ids[..n][i] == ids[i];
      }
    }
  }

  /** Processes the catalog plugins one after the other, stopping at the
      first failure. On success there is one resolved entry per id, in order. */
  function FetchAll(remote: Remote, outputDir: string, fs: FileStore, ids: seq<string>): (s: Step<seq<PluginDto>>)
    ensures s.result.Success? ==> Fetched(remote, outputDir, ids, s.result.value, s.files)
    ensures KeepsOutsideFilesDir(outputDir, fs, s.files)
  {
    if |ids| == 0 then Step(fs, Success([]))
    else
      var n := |ids| - 1;
      var prev := FetchAll(remote, outputDir, fs, ids[..n]);
      if prev.result.Failure? then prev
      else
        var one := ProcessPlugin(remote, outputDir, prev.files, ids[n]);
        KeepsOutsideFilesDirTransitive(outputDir, fs, prev.files, one.files);
        if one.result.Failure? then Step(one.files, Failure(one.result.error))
        else
          FetchedSnoc(remote, outputDir, ids, prev.result.value, one.result.value, prev.files, one.files);
          Step(one.files, Success(prev.result.value + [one.result.value]))
  }

  /** `FetchAll` succeeds exactly when the catalog answers for every plugin;
      otherwise it fails with the error of the first plugin the catalog does
      not answer for. */
  lemma {:induction false} FetchAllOutcome(remote: Remote, outputDir: string, fs: FileStore, ids: seq<string>)
    ensures FetchAll(remote, outputDir, fs, ids).result.Success? <==> AllAvailable(remote, ids)
    ensures var s := FetchAll(remote, outputDir, fs, ids);
            s.result.Failure? ==>
              exists i :: FirstUnavailable(remote, ids, i)
                && s.result.error == ProcessPlugin(remote, outputDir, fs, ids[i]).result.error
  {
    if |ids| > 0 {
      var n := |ids| - 1;
      FetchAllOutcome(remote, outputDir, fs, ids[..n]);
      var prev := FetchAll(remote, outputDir, fs, ids[..n]);
      AllAvailableSnoc(remote, ids, n);
      if prev.result.Failure? {
        FirstUnavailablePrefix(remote, outputDir, fs, ids, n, prev.result.error);
      } else {
        ProcessPluginFailureIgnoresFiles(remote, outputDir, prev.files, fs, ids[n]);
        if ProcessPlugin(remote, outputDir, prev.files, ids[n]).result.Failure? {
          assert FirstUnavailable(remote, ids, n);
        }
      }
    }
  }

  /** Where a local plugin's archive is copied to. */
  function LocalArtifactPath(outputDir: string, p: LocalPlugin): string {
    ArtifactPath(outputDir, Base(p.file))
  }

  /** The file a local plugin's archive path names: the store knows files by
      their cleaned paths, so `./out/files/a.jar` and `out/files/a.jar` are
      one file. */
  function ArchivePath(p: LocalPlugin): string {
    Clean(p.file)
  }

  /** The local archive of `p` exists in `fs`, and its last element names a
      file rather than a directory. */
  predicate LocalReady(fs: FileStore, p: LocalPlugin) {
    ArchivePath(p) in fs && PlainName(Base(p.file))
  }

  /** Copies one local plugin's archive to `<dir>/files/<Base(file)>`, as
      `copyLocalPlugin` does: the archive is opened first, so a missing one
      is reported first; an archive path whose last element is `.`, `..` or
      `/` names a directory, and the destination cannot be created. */
  function CopyLocalPlugin(outputDir: string, fs: FileStore, p: LocalPlugin): (r: Result<FileStore>)
    ensures r.Failure? <==> !LocalReady(fs, p)
    ensures ArchivePath(p) !in fs ==> r == Failure(LocalArtifactMissing(p.file))
    ensures ArchivePath(p) in fs && !PlainName(Base(p.file)) ==>
              r == Failure(NotARegularFile(LocalArtifactPath(outputDir, p)))
    ensures r.Success? ==>
              && Stored(outputDir, Base(p.file), r.value)
              && r.value[LocalArtifactPath(outputDir, p)] == fs[ArchivePath(p)]
              && KeepsOutsideFilesDir(outputDir, fs, r.value)
  {
    var dest := LocalArtifactPath(outputDir, p);
    if ArchivePath(p) !in fs then Failure(LocalArtifactMissing(p.file))
    else if !PlainName(Base(p.file)) then Failure(NotARegularFile(dest))
    else
      PlainNameConfined(Base(p.file));
      var files := CopyLocal(fs, ArchivePath(p), dest).value;
      ArtifactWriteKeeps(outputDir, Base(p.file), fs, files);
      Success(files)
  }

  /** `copyLocalPlugin` as written: the same steps, with the program's copy,
      which truncates the destination after opening the archive. */
  function CopyLocalPluginAsWritten(outputDir: string, fs: FileStore, p: LocalPlugin): (r: Result<FileStore>)
    ensures r.Failure? <==> !LocalReady(fs, p)
    ensures r.Success? ==> LocalArtifactPath(outputDir, p) in r.value
                           && SameExcept(fs, r.value, LocalArtifactPath(outputDir, p))
  {
    var dest := LocalArtifactPath(outputDir, p);
    if ArchivePath(p) !in fs then Failure(LocalArtifactMissing(p.file))
    else if !PlainName(Base(p.file)) then Failure(NotARegularFile(dest))
    else CopyLocalAsWritten(fs, ArchivePath(p), dest)
  }

  /** The program's copy and the corrected one agree unless the archive is,
      under whatever spelling, the file at its own destination; there the
      program empties a non-empty archive and the corrected copy keeps it. */
  lemma CopyLocalPluginAsWrittenAgrees(outputDir: string, fs: FileStore, p: LocalPlugin)
    ensures ArchivePath(p) != LocalArtifactPath(outputDir, p) ==>
              CopyLocalPluginAsWritten(outputDir, fs, p) == CopyLocalPlugin(outputDir, fs, p)
    ensures var dest := LocalArtifactPath(outputDir, p);
            ArchivePath(p) == dest && LocalReady(fs, p) && fs[dest] != Blob([]) ==>
              && CopyLocalPluginAsWritten(outputDir, fs, p).value[dest] == Blob([])
              && CopyLocalPlugin(outputDir, fs, p).value[dest] == fs[dest]
  {
  }

  /** In a build into a relative directory such as `out`, a local plugin
      whose archive is `./out/files/x.jar` names the file its copy is written
      to: the program leaves the archive empty, the corrected copy keeps its
      bytes. */
  lemma AliasedSelfCopyTruncates(outputDir: string, name: string, fs: FileStore, p: LocalPlugin)
    requires outputDir != "" && !Rooted(outputDir) && PlainName(name)
    requires p.file == "./" + outputDir + "/" + PluginDownloadDir + "/" + name
    requires ArtifactPath(outputDir, name) in fs && fs[ArtifactPath(outputDir, name)] != Blob([])
    ensures CopyLocalPluginAsWritten(outputDir, fs, p) == Success(fs[ArtifactPath(outputDir, name) := Blob([])])
    ensures CopyLocalPlugin(outputDir, fs, p) == Success(fs)
    ensures CopyLocalPluginAsWritten(outputDir, fs, p) != CopyLocalPlugin(outputDir, fs, p)
  {
    AliasedArchive(outputDir, name, p);
    SelfCopy(outputDir, fs, p);
    assert fs[ArtifactPath(outputDir, name) := Blob([])][ArtifactPath(outputDir, name)] == Blob([]);
  }

  lemma AliasedArchive(outputDir: string, name: string, p: LocalPlugin)
    requires outputDir != "" && !Rooted(outputDir) && PlainName(name)
    requires p.file == "./" + outputDir + "/" + PluginDownloadDir + "/" + name
    ensures ArchivePath(p) == LocalArtifactPath(outputDir, p) == ArtifactPath(outputDir, name)
    ensures PlainName(Base(p.file))
  {
    DotSpelledArtifact(outputDir, name);
  }

  lemma SelfCopy(outputDir: string, fs: FileStore, p: LocalPlugin)
    requires ArchivePath(p) == LocalArtifactPath(outputDir, p) && ArchivePath(p) in fs && PlainName(Base(p.file))
    ensures CopyLocalPluginAsWritten(outputDir, fs, p) == Success(fs[ArchivePath(p) := Blob([])])
    ensures CopyLocalPlugin(outputDir, fs, p) == Success(fs)
  {
    assert fs[ArchivePath(p) := fs[ArchivePath(p)]] == fs;
  }

  /** `e` is the error `CopyLocalPlugin` reports for `p` against `fs`: the
      archive is missing, or its last element names a directory. */
  ghost predicate CopyFailure(outputDir: string, fs: FileStore, p: LocalPlugin, e: BuildError) {
    || (ArchivePath(p) !in fs && e == LocalArtifactMissing(p.file))
    || (!PlainName(Base(p.file)) && e == NotARegularFile(LocalArtifactPath(outputDir, p)))
  }

  /** Copying against a store that has grown from `fs` fails only as it
      would against `fs`, and never for an archive ready in `fs`. */
  lemma CopyLocalPluginLater(outputDir: string, fs: FileStore, later: FileStore, p: LocalPlugin)
    requires fs.Keys <= later.Keys
    ensures LocalReady(fs, p) ==> CopyLocalPlugin(outputDir, later, p).Success?
    ensures var r := CopyLocalPlugin(outputDir, later, p);
            r.Failure? ==> CopyFailure(outputDir, fs, p, r.error)
  {
  }

  /** Copies the local plugins one after the other, stopping at the first
      failure: it succeeds whenever every archive is ready beforehand, and a
      failure names an archive that was missing or a directory. */
  function CopyAll(outputDir: string, fs: FileStore, locals: seq<LocalPlugin>): (s: Step<()>)
    ensures (forall i :: 0 <= i < |locals| ==> LocalReady(fs, locals[i])) ==> s.result.Success?
    ensures s.result.Success? ==> forall i :: 0 <= i < |locals| ==> Stored(outputDir, Base(locals[i].file), s.files)
    ensures s.result.Failure? ==>
              exists i :: 0 <= i < |locals| && CopyFailure(outputDir, fs, locals[i], s.result.error)
    ensures KeepsOutsideFilesDir(outputDir, fs, s.files)
  {
    if |locals| == 0 then Step(fs, Success(()))
    else
      var n := |locals| - 1;
      var prev := CopyAll(outputDir, fs, locals[..n]);
      assert forall i :: 0 <= i < n ==> locals[..n][i] == locals[i];
      if prev.result.Failure? then prev
      else
        var p := locals[n];
        CopyLocalPluginLater(outputDir, fs, prev.files, p);
        match CopyLocalPlugin(outputDir, prev.files, p)
        case Failure(e) =>
          assert CopyFailure(outputDir, fs, locals[n], e);
          Step(prev.files, Failure(e))
        case Success(files) =>
          KeepsOutsideFilesDirTransitive(outputDir, fs, prev.files, files);
          StoredAfterCopy(outputDir, locals, prev.files, files);
          Step(files, Success(()))
  }

  /** The archives copied before the last one stay stored when the last one
      is copied. */
  lemma StoredAfterCopy(outputDir: string, locals: seq<LocalPlugin>, before: FileStore, after: FileStore)
    requires |locals| > 0
    requires var init := locals[..|locals| - 1];
             forall i :: 0 <= i < |init| ==> Stored(outputDir, Base(init[i].file), before)
    requires before.Keys <= after.Keys
    requires Stored(outputDir, Base(locals[|locals| - 1].file), after)
    ensures forall i :: 0 <= i < |locals| ==> Stored(outputDir, Base(locals[i].file), after)
  {
    var init := locals[..|locals| - 1];
    forall i | 0 <= i < |locals|
      ensures Stored(outputDir, Base(locals[i].file), after)
    {
      if i < |init| {
        assert init[i] == locals[i];
        assert Stored(outputDir, Base(init[i].file), before);
      }
    }
  }

  /** The ids under which the catalog files the given plugins. */
  ghost function CatalogXmlIds(remote: Remote, ids: seq<string>): set<string> {
    set i | 0 <= i < |ids| && GetPlugin(remote, ids[i]).Success? :: GetPlugin(remote, ids[i]).value.xmlId
  }

  lemma CatalogIdsOfFetched(remote: Remote, ids: seq<string>, es: seq<PluginDto>)
    requires |es| == |ids|
    requires forall i :: 0 <= i < |ids| ==> ResolvedFrom(remote, ids[i], es[i])
    ensures XmlIds(es) == CatalogXmlIds(remote, ids)
  {
    forall i | 0 <= i < |ids|
      ensures GetPlugin(remote, ids[i]).Success?
      ensures es[i].xmlId == GetPlugin(remote, ids[i]).value.xmlId
    {
      assert ResolvedFrom(remote, ids[i], es[i]);
    }
  }

  /** The merge of resolved catalog entries and local plugins: its keys,
      local-wins, and where every other entry comes from. */
  lemma MergedEntries(remote: Remote, ids: seq<string>, es: seq<PluginDto>, locals: seq<LocalPlugin>)
    requires |es| == |ids|
    requires forall i :: 0 <= i < |ids| ==> ResolvedFrom(remote, ids[i], es[i])
    ensures var m := Merge(es, locals);
            && m.Keys == CatalogXmlIds(remote, ids) + LocalIds(locals)
            && KeyedByXmlId(m)
            && (forall i :: 0 <= i < |locals| &&
                  (forall j :: i < j < |locals| ==> locals[j].id != locals[i].id)
                  ==> m[locals[i].id] == LocalEntry(locals[i]))
            && (forall k :: k in m && k !in LocalIds(locals) ==>
                  exists i :: 0 <= i < |ids| && ResolvedFrom(remote, ids[i], m[k]))
  {
    var m := Merge(es, locals);
    CatalogIdsOfFetched(remote, ids, es);
    forall i | 0 <= i < |locals| && (forall j :: i < j < |locals| ==> locals[j].id != locals[i].id)
      ensures m[locals[i].id] == LocalEntry(locals[i])
    {
      LocalWins(es, locals, i);
    }
    forall k | k in m && k !in LocalIds(locals)
      ensures exists i :: 0 <= i < |ids| && ResolvedFrom(remote, ids[i], m[k])
    {
      var i :| 0 <= i < |es| && es[i] == m[k];
      assert ResolvedFrom(remote, ids[i], m[k]);
    }
  }

  /** When every fetched entry and every local plugin has its artifact in
      `files`, so does every entry of their merge. */
  lemma MergedArtifacts(outputDir: string, es: seq<PluginDto>, locals: seq<LocalPlugin>, files: FileStore)
    requires forall i :: 0 <= i < |es| ==> Stored(outputDir, es[i].release.file, files)
    requires forall i :: 0 <= i < |locals| ==> Stored(outputDir, Base(locals[i].file), files)
    ensures forall k :: k in Merge(es, locals) ==> Stored(outputDir, Merge(es, locals)[k].release.file, files)
  {
    var m := Merge(es, locals);
    forall k | k in m
      ensures Stored(outputDir, m[k].release.file, files)
    {
      if m[k] !in es {
        var i :| 0 <= i < |locals| && m[k] == LocalEntry(locals[i]);
        assert Stored(outputDir, Base(locals[i].file), files);
      }
    }
  }

  /** Some iteration order of the map's keys; which one is left open. */
  ghost function AnyOrder(ks: set<string>): (o: seq<string>)
    ensures multiset(o) == multiset(ks)
  {
    if ks == {} then []
    else
      var k :| k in ks;
      assert multiset(ks) == multiset{k} + multiset(ks - {k});
      [k] + AnyOrder(ks - {k})
  }

  /** `m` is the map the build publishes for `cfg`: its keys are the ids the
      catalog gives the catalog plugins plus the local ids, every entry sits
      under its own id, the last local plugin of an id wins, every other
      entry is a resolved catalog plugin, and every entry's artifact is
      stored in `files`. */
  ghost predicate MergedFrom(remote: Remote, cfg: Config, m: map<string, PluginDto>, files: FileStore) {
    && m.Keys == CatalogXmlIds(remote, cfg.plugins) + LocalIds(cfg.localPlugins)
    && KeyedByXmlId(m)
    && (forall i :: 0 <= i < |cfg.localPlugins| &&
          (forall j :: i < j < |cfg.localPlugins| ==> cfg.localPlugins[j].id != cfg.localPlugins[i].id)
          ==> m[cfg.localPlugins[i].id] == LocalEntry(cfg.localPlugins[i]))
    && (forall k :: k in m && k !in LocalIds(cfg.localPlugins) ==>
          exists i :: 0 <= i < |cfg.plugins| && ResolvedFrom(remote, cfg.plugins[i], m[k]))
    && (forall k :: k in m ==> Stored(cfg.dir, m[k].release.file, files))
  }

  lemma MergeIsMergedFrom(remote: Remote, cfg: Config, es: seq<PluginDto>, fetchedFiles: FileStore, files: FileStore)
    requires Fetched(remote, cfg.dir, cfg.plugins, es, fetchedFiles)
    requires fetchedFiles.Keys <= files.Keys
    requires forall i :: 0 <= i < |cfg.localPlugins| ==> Stored(cfg.dir, Base(cfg.localPlugins[i].file), files)
    ensures MergedFrom(remote, cfg, Merge(es, cfg.localPlugins), files)
  {
    MergedEntries(remote, cfg.plugins, es, cfg.localPlugins);
    MergedArtifacts(cfg.dir, es, cfg.localPlugins, files);
  }

  lemma MergedFromGrows(remote: Remote, cfg: Config, m: map<string, PluginDto>, before: FileStore, after: FileStore)
    requires MergedFrom(remote, cfg, m, before) && before.Keys <= after.Keys
    ensures MergedFrom(remote, cfg, m, after)
  {
  }

  /** Every local archive of the configuration is ready to be copied from `fs`. */
  ghost predicate AllArchivesReady(locals: seq<LocalPlugin>, fs: FileStore) {
    forall i :: 0 <= i < |locals| ==> LocalReady(fs, locals[i])
  }

  /** Everything before the manifest: download the catalog plugins, copy the
      local ones, merge their entries. It needs every catalog plugin to be
      answered for, and succeeds whenever in addition every archive is ready. */
  function Collect(remote: Remote, cfg: Config, fs: FileStore): (s: Step<map<string, PluginDto>>)
    ensures KeepsOutsideFilesDir(cfg.dir, fs, s.files)
    ensures s.result.Success? ==> AllAvailable(remote, cfg.plugins)
    ensures AllAvailable(remote, cfg.plugins) && AllArchivesReady(cfg.localPlugins, fs) ==> s.result.Success?
    ensures s.result.Success? ==> MergedFrom(remote, cfg, s.result.value, s.files)
  {
    var fetched := FetchAll(remote, cfg.dir, fs, cfg.plugins);
    FetchAllOutcome(remote, cfg.dir, fs, cfg.plugins);
    if fetched.result.Failure? then Step(fetched.files, Failure(fetched.result.error))
    else
      var copied := CopyAll(cfg.dir, fetched.files, cfg.localPlugins);
      KeepsOutsideFilesDirTransitive(cfg.dir, fs, fetched.files, copied.files);
      if copied.result.Failure? then Step(copied.files, Failure(copied.result.error))
      else
        var es := fetched.result.value;
        MergeIsMergedFrom(remote, cfg, es, fetched.files, copied.files);
        Step(copied.files, Success(Merge(es, cfg.localPlugins)))
  }

  /** Renders the manifest for `m` in some iteration order and creates it,
      changing nothing else; fails, writing nothing, when a manifest is
      already there. */
  ghost function Publish(serverUrl: string, outputDir: string, fs: FileStore, m: map<string, PluginDto>)
    : (s: Step<map<string, PluginDto>>)
    ensures s.result.Failure? <==> ManifestPath(outputDir) in fs
    ensures s.result.Failure? ==> s.files == fs && s.result.error == ManifestAlreadyExists(ManifestPath(outputDir))
    ensures s.result.Success? ==>
              && s.result.value == m
              && ManifestPath(outputDir) in s.files
              && SameExcept(fs, s.files, ManifestPath(outputDir))
              && exists order :: Enumerates(order, m)
                   && s.files[ManifestPath(outputDir)] == Text(Render(serverUrl, m, order))
  {
    var order := AnyOrder(m.Keys);
    var manifest := ManifestPath(outputDir);
    match WriteExclusive(fs, manifest, Render(serverUrl, m, order))
    case Failure(e) => Step(fs, Failure(e))
    case Success(files) =>
      assert Enumerates(order, m) && files[manifest] == Text(Render(serverUrl, m, order));
      Step(files, Success(m))
  }

  /** A store that differs from `before` only by the new file `path` is
      `before` once `path` is removed. */
  lemma CreatedOnly(before: FileStore, after: FileStore, path: string)
    requires SameExcept(before, after, path) && path !in before
    ensures after - {path} == before
  {
    assert forall p :: p in before <==> p in after && p != path;
  }

  /** Everything a successful build needs: some plugin is configured, the
      catalog answers for every catalog plugin, every local archive is ready,
      and no manifest is there yet. */
  ghost predicate Buildable(remote: Remote, cfg: Config, fs: FileStore) {
    && (|cfg.plugins| > 0 || |cfg.localPlugins| > 0)
    && AllAvailable(remote, cfg.plugins)
    && AllArchivesReady(cfg.localPlugins, fs)
    && ManifestPath(cfg.dir) !in fs
  }

  /** The whole build for a configuration, starting from the file store `fs`.
      It is refused outright when no plugin is configured. It succeeds when
      every catalog plugin is answered for, every archive is ready and no
      manifest is there yet, and only then does it create the manifest;
      otherwise only the artifact directory has changed. */
  ghost function Build(remote: Remote, cfg: Config, fs: FileStore): (s: Step<map<string, PluginDto>>)
    ensures |cfg.plugins| == 0 && |cfg.localPlugins| == 0 ==> s == Step(fs, Failure(NoPluginsConfigured))
    ensures s.result.Success? ==>
              && (|cfg.plugins| > 0 || |cfg.localPlugins| > 0)
              && AllAvailable(remote, cfg.plugins)
              && ManifestPath(cfg.dir) !in fs
    ensures Buildable(remote, cfg, fs) ==> s.result.Success?
    ensures s.result.Failure? ==> KeepsOutsideFilesDir(cfg.dir, fs, s.files)
    ensures s.result.Failure? && ManifestPath(cfg.dir) !in fs ==> ManifestPath(cfg.dir) !in s.files
    ensures s.result.Success? ==>
              && ManifestPath(cfg.dir) in s.files
              && KeepsOutsideFilesDir(cfg.dir, fs, s.files - {ManifestPath(cfg.dir)})
  {
    if |cfg.plugins| == 0 && |cfg.localPlugins| == 0 then Step(fs, Failure(NoPluginsConfigured))
    else
      var collected := Collect(remote, cfg, fs);
      KeepsManifestAbsent(cfg.dir, fs, collected.files);
      if collected.result.Failure? then collected
      else
        var published := Publish(cfg.serverUrl, cfg.dir, collected.files, collected.result.value);
        if published.result.Success? then
          CreatedOnly(collected.files, published.files, ManifestPath(cfg.dir));
          published
        else published
  }

  /** A successful build published a manifest rendered from its map in some
      iteration order; the map lists exactly the catalog plugins and the local
      plugins, a local plugin replaces a catalog plugin of the same id (the
      last local plugin of an id wins), every other entry is a catalog plugin
      with a greatest release, every entry's artifact is stored in the
      output tree, and, for a file name a URL reads as written, at the path
      its manifest address names when served from there. */
  lemma BuildSucceeds(remote: Remote, cfg: Config, fs: FileStore)
    requires Build(remote, cfg, fs).result.Success?
    ensures var s := Build(remote, cfg, fs);
            var m := s.result.value;
            && ManifestPath(cfg.dir) in s.files
            && (exists order :: Enumerates(order, m)
                  && s.files[ManifestPath(cfg.dir)] == Text(Render(cfg.serverUrl, m, order)))
            && MergedFrom(remote, cfg, m, s.files)
            && (forall k :: k in m && UrlPlain(m[k].release.file) ==>
                  ServedPath(cfg.dir, cfg.serverUrl, UrlAttr(cfg.serverUrl, m[k]))
                  == Some(ArtifactPath(cfg.dir, m[k].release.file)))
  {
    var collected := Collect(remote, cfg, fs);
    var s := Build(remote, cfg, fs);
    assert collected.result.Success?;
    assert s == Publish(cfg.serverUrl, cfg.dir, collected.files, collected.result.value);
    var m := s.result.value;
    assert m == collected.result.value;
    MergedFromGrows(remote, cfg, m, collected.files, s.files);
    ServedArtifacts(cfg, m, s.files);
  }

  /** Every stored entry whose file name a URL reads as written is served,
      from the output tree, at the address its manifest line gives. */
  lemma ServedArtifacts(cfg: Config, m: map<string, PluginDto>, files: FileStore)
    requires forall k :: k in m ==> Stored(cfg.dir, m[k].release.file, files)
    ensures forall k :: k in m && UrlPlain(m[k].release.file) ==>
              ServedPath(cfg.dir, cfg.serverUrl, UrlAttr(cfg.serverUrl, m[k]))
              == Some(ArtifactPath(cfg.dir, m[k].release.file))
  {
    forall k | k in m && UrlPlain(m[k].release.file)
      ensures ServedPath(cfg.dir, cfg.serverUrl, UrlAttr(cfg.serverUrl, m[k]))
              == Some(ArtifactPath(cfg.dir, m[k].release.file))
    {
      ServedUrlIsArtifact(cfg.dir, cfg.serverUrl, m[k].release.file);
    }
  }

  /** A configuration with one local archive that exists, and no catalog
      plugins, builds into any output directory: the conditions of
      `BuildSucceeds` can be met. */
  lemma LocalOnlyBuildSucceeds(dir: string)
    ensures var local := LocalPlugin("p", "1.0", "", "", "a.jar", "p", "", "", "", "");
            var cfg := DefaultConfig.(dir := dir, localPlugins := [local]);
            Build(Remote(map[], map[], map[]), cfg, map["a.jar" := Blob([1])]).result.Success?
  {
    var local := LocalPlugin("p", "1.0", "", "", "a.jar", "p", "", "", "", "");
    var cfg := DefaultConfig.(dir := dir, localPlugins := [local]);
    var fs := map["a.jar" := Blob([1])];
    LocalOnlyBuildable(cfg, local, fs);
  }

  lemma LocalOnlyBuildable(cfg: Config, local: LocalPlugin, fs: FileStore)
    requires cfg.plugins == [] && cfg.localPlugins == [local]
    requires local.file in fs && PlainName(local.file) && |local.file| < |ManifestFileName|
    requires fs.Keys == {local.file}
    ensures Buildable(Remote(map[], map[], map[]), cfg, fs)
  {
    ShortNameIsNotManifest(cfg.dir, local.file);
    PlainReady(fs, local);
  }

  lemma PlainReady(fs: FileStore, p: LocalPlugin)
    requires p.file in fs && PlainName(p.file)
    ensures AllArchivesReady([p], fs)
  {
    CleanPlainName(p.file);
    assert LocalReady(fs, p);
  }

  /** A name shorter than the manifest's file name is not the manifest's path. */
  lemma ShortNameIsNotManifest(outputDir: string, name: string)
    requires |name| < |ManifestFileName|
    ensures ManifestPath(outputDir) != name
  {
    OutputTreeShape(outputDir, "");
  }
}

=== FILE: catalog.dfy ===
/** The remote plugin catalog: the URLs the builder requests, and what the
    catalog answers. The network is not modelled; the answers are a value. */
module Catalog {
  import opened Records
  import opened Outcomes

  const IntellijDownloadUrlPrefix: string := "https://plugins.jetbrains.com/files"
  const PluginApiUrlPrefix: string := "https://plugins.jetbrains.com/api/plugins"
  const PluginReleaseUrlPrefix: string := "https://plugins.jetbrains.com/api/plugins"
  const PluginReleaseUrlSuffix: string := "updates?channel=&size=8"

  /** The metadata endpoint of one plugin; the id can be read back from its end. */
  function PluginUrl(pluginId: string): (url: string)
    ensures |url| == |PluginApiUrlPrefix| + 1 + |pluginId|
    ensures url[..|PluginApiUrlPrefix| + 1] == PluginApiUrlPrefix + "/"
    ensures url[|PluginApiUrlPrefix| + 1..] == pluginId
  {
    PluginApiUrlPrefix + "/" + pluginId
  }

  /** The release-list endpoint of one plugin: a sub-resource of its metadata
      endpoint, asking for one page of at most eight releases. */
  function ReleasesUrl(pluginId: string): (url: string)
    ensures url == PluginUrl(pluginId) + "/" + PluginReleaseUrlSuffix
  {
    PluginReleaseUrlPrefix + "/" + pluginId + "/" + PluginReleaseUrlSuffix
  }

  /** Where the catalog serves an artifact; the file name can be read back. */
  function DownloadUrl(file: string): (url: string)
    ensures |url| == |IntellijDownloadUrlPrefix| + 1 + |file|
    ensures url[..|IntellijDownloadUrlPrefix| + 1] == IntellijDownloadUrlPrefix + "/"
    ensures url[|IntellijDownloadUrlPrefix| + 1..] == file
  {
    IntellijDownloadUrlPrefix + "/" + file
  }

  /** Different plugins are asked for at different URLs. */
  lemma CatalogUrlsInjective(a: string, b: string)
    ensures PluginUrl(a) == PluginUrl(b) ==> a == b
    ensures ReleasesUrl(a) == ReleasesUrl(b) ==> a == b
    ensures DownloadUrl(a) == DownloadUrl(b) ==> a == b
  {
    if ReleasesUrl(a) == ReleasesUrl(b) {
      var n := |PluginReleaseUrlSuffix| + 1;
      assert PluginUrl(a) == ReleasesUrl(a)[..|ReleasesUrl(a)| - n];
      assert PluginUrl(b) == ReleasesUrl(b)[..|ReleasesUrl(b)| - n];
    }
  }

  /** What the catalog answers, keyed by request URL. A URL missing from a
      map is a request that failed in transport; `None` is a body that did
      not decode into the expected record. */
  datatype Remote = Remote(
    metadata: map<string, Option<Plugin>>,
    releases: map<string, Option<seq<PluginRelease>>>,
    artifacts: map<string, seq<Byte>>)

  /** Fetches a plugin's metadata: a failed request is `CatalogUnavailable`,
      an answer that does not decode is `MalformedResponse`. */
  function GetPlugin(remote: Remote, pluginId: string): (r: Result<Plugin>)
    ensures r.Success? <==> PluginUrl(pluginId) in remote.metadata
                            && remote.metadata[PluginUrl(pluginId)].Some?
    ensures r.Success? ==> remote.metadata[PluginUrl(pluginId)] == Some(r.value)
    ensures r.Failure? ==> r.error == if PluginUrl(pluginId) !in remote.metadata
                                      then CatalogUnavailable(PluginUrl(pluginId))
                                      else MalformedResponse(PluginUrl(pluginId))
  {
    var url := PluginUrl(pluginId);
    if url !in remote.metadata then Failure(CatalogUnavailable(url))
    else match remote.metadata[url]
      case None => Failure(MalformedResponse(url))
      case Some(p) => Success(p)
  }

  /** Fetches a plugin's release list, with the same two failures as
      `GetPlugin`. */
  function GetPluginReleases(remote: Remote, pluginId: string): (r: Result<seq<PluginRelease>>)
    ensures r.Success? <==> ReleasesUrl(pluginId) in remote.releases
                            && remote.releases[ReleasesUrl(pluginId)].Some?
    ensures r.Success? ==> remote.releases[ReleasesUrl(pluginId)] == Some(r.value)
    ensures r.Failure? ==> r.error == if ReleasesUrl(pluginId) !in remote.releases
                                      then CatalogUnavailable(ReleasesUrl(pluginId))
                                      else MalformedResponse(ReleasesUrl(pluginId))
  {
    var url := ReleasesUrl(pluginId);
    if url !in remote.releases then Failure(CatalogUnavailable(url))
    else match remote.releases[url]
      case None => Failure(MalformedResponse(url))
      case Some(rs) => Success(rs)
  }

  /** Recording an answer for a plugin is what fetching it then returns. */
  lemma AnswerIsFetched(remote: Remote, pluginId: string, p: Plugin, rs: seq<PluginRelease>)
    ensures GetPlugin(remote.(metadata := remote.metadata[PluginUrl(pluginId) := Some(p)]), pluginId) == Success(p)
    ensures GetPluginReleases(remote.(releases := remote.releases[ReleasesUrl(pluginId) := Some(rs)]), pluginId)
         == Success(rs)
  {
  }

  /** What the catalog answers for one plugin does not depend on its answers
      for any other plugin. */
  lemma AnswersAreSeparate(remote: Remote, pluginId: string, other: string,
                           meta: Option<Plugin>, rels: Option<seq<PluginRelease>>)
    requires other != pluginId
    ensures GetPlugin(remote.(metadata := remote.metadata[PluginUrl(other) := meta]), pluginId)
         == GetPlugin(remote, pluginId)
    ensures GetPluginReleases(remote.(releases := remote.releases[ReleasesUrl(other) := rels]), pluginId)
         == GetPluginReleases(remote, pluginId)
  {
    CatalogUrlsInjective(pluginId, other);
  }
}

=== FILE: files.dfy ===
/** The builder's effects on the file system, over an abstract store from
    path to contents: downloading an artifact only when it is missing, copying
    a local archive unconditionally, and creating the manifest exclusively.
    Directories are not modelled; creating them never fails here. */
module Files {
  import opened Records
  import opened Outcomes

  datatype Content = Blob(bytes: seq<Byte>) | Text(text: string)

  /** The files present, each under its cleaned path (`Paths.Clean`): one key
      per file, whichever spelling the program used to reach it. */
  type FileStore = map<string, Content>

  /** `after` agrees with `before` everywhere except, possibly, at `path`. */
  ghost predicate SameExcept(before: FileStore, after: FileStore, path: string) {
    forall p :: p != path ==> (p in before <==> p in after) && (p in before ==> before[p] == after[p])
  }

  /** Downloads `url` to `dest` unless `dest` already exists. The request is
      issued first, so a failed request fails even when `dest` exists.
      `response` is the body the server sent, or nothing when the request failed. */
  function DownloadFile(fs: FileStore, dest: string, url: string, response: Option<seq<Byte>>): (r: Result<FileStore>)
    ensures r.Failure? <==> response.None?
    ensures r.Failure? ==> r.error == DownloadFailed(url)
    ensures r.Success? ==> dest in r.value && SameExcept(fs, r.value, dest)
    ensures r.Success? && dest in fs ==> r.value == fs
    ensures r.Success? && dest !in fs ==> r.value[dest] == Blob(response.value)
  {
    match response
    case None => Failure(DownloadFailed(url))
    case Some(body) => if dest in fs then Success(fs) else Success(fs[dest := Blob(body)])
  }

  /** Downloading to the same destination again changes nothing, whatever the
      second response body is, as long as the request itself succeeds. */
  lemma DownloadIdempotent(fs: FileStore, dest: string, url: string, first: seq<Byte>, second: seq<Byte>)
    ensures DownloadFile(fs, dest, url, Some(first)).Success?
    ensures var once := DownloadFile(fs, dest, url, Some(first)).value;
            DownloadFile(once, dest, url, Some(second)) == Success(once)
  {
  }

  /** Copies a local archive over `dest` as `copyLocalPlugin` does it: the
      destination is truncated after the source is opened, so copying a file
      onto itself leaves it empty. Both are store keys, so `src == dest`
      means one file, however the program spelled the archive's path. */
  function CopyLocalAsWritten(fs: FileStore, src: string, dest: string): (r: Result<FileStore>)
    ensures r.Failure? <==> src !in fs
    ensures r.Success? ==> dest in r.value && SameExcept(fs, r.value, dest)
    ensures r.Success? && src != dest ==> r.value[dest] == fs[src]
  {
    if src !in fs then Failure(LocalArtifactMissing(src))
    else if src == dest then Success(fs[dest := Blob([])])
    else Success(fs[dest := fs[src]])
  }

  /** A local archive whose path is already its destination loses its contents. */
  lemma SelfCopyTruncates()
    ensures var fs := map["out/files/a.jar" := Blob([1, 2, 3])];
            var r := CopyLocalAsWritten(fs, "out/files/a.jar", "out/files/a.jar");
            r.Success? && r.value["out/files/a.jar"] != fs["out/files/a.jar"]
  {
  }

  /** Copies a local archive over `dest`, replacing whatever was there; after
      the copy the destination always holds the source's contents. */
  function CopyLocal(fs: FileStore, src: string, dest: string): (r: Result<FileStore>)
    ensures r.Failure? <==> src !in fs
    ensures r.Failure? ==> r.error == LocalArtifactMissing(src)
    ensures r.Success? ==> dest in r.value && r.value[dest] == fs[src] && SameExcept(fs, r.value, dest)
  {
    if src !in fs then Failure(LocalArtifactMissing(src)) else Success(fs[dest := fs[src]])
  }

  /** Except when an archive is copied onto itself (the same store key), the
      corrected copy and the copy as written produce the same store. */
  lemma CopyAsWrittenAgrees(fs: FileStore, src: string, dest: string)
    ensures src != dest ==> CopyLocalAsWritten(fs, src, dest) == CopyLocal(fs, src, dest)
    ensures src == dest && src in fs && fs[src] != Blob([]) ==>
              CopyLocalAsWritten(fs, src, dest) != CopyLocal(fs, src, dest)
  {
    if src == dest && src in fs && fs[src] != Blob([]) {
      assert CopyLocalAsWritten(fs, src, dest).value[dest] == Blob([]);
    }
  }

  /** The two artifact operations differ on an existing destination with other
      contents: a copy replaces it, a download leaves it alone. */
  lemma CopyOverwritesDownloadKeeps(fs: FileStore, src: string, dest: string, url: string, body: seq<Byte>)
    requires src in fs && dest in fs && fs[src] != fs[dest]
    ensures CopyLocal(fs, src, dest).Success? && CopyLocal(fs, src, dest).value[dest] != fs[dest]
    ensures DownloadFile(fs, dest, url, Some(body)) == Success(fs)
  {
  }

  /** Creates `path` with `text`; fails, changing nothing, when it exists. */
  function WriteExclusive(fs: FileStore, path: string, text: string): (r: Result<FileStore>)
    ensures r.Failure? <==> path in fs
    ensures r.Failure? ==> r.error == ManifestAlreadyExists(path)
    ensures r.Success? ==> path in r.value && r.value[path] == Text(text) && SameExcept(fs, r.value, path)
  {
    if path in fs then Failure(ManifestAlreadyExists(path)) else Success(fs[path := Text(text)])
  }
}

=== FILE: manifest.dfy ===
/** Rendering the merged map into the `updatePlugins.xml` manifest: an XML
    header, six lines per entry in the map's iteration order, and a closing
    tag. Field values are inserted verbatim, without escaping. */
module Manifest {
  import opened Records
  import opened Outcomes
  import opened Paths
  import opened Merger

  const Header: string := "<?xml version=\"1.0\" encoding=\"UTF-8\"?>\n<plugins>\n"
  const Footer: string := "</plugins>\n"
  const CloseTag: string := "\t</plugin>\n"
  const IdOpen: string := "\t<plugin id=\""
  const UrlOpen: string := "\" url=\""

  /** The download address the manifest gives for an entry. */
  function UrlAttr(serverUrl: string, e: PluginDto): string {
    serverUrl + "/" + PluginDownloadDir + "/" + e.release.file
  }

  function OpenTag(serverUrl: string, e: PluginDto): string {
    IdOpen + e.xmlId + UrlOpen + UrlAttr(serverUrl, e) + "\" version=\"" + e.release.version + "\">\n"
  }

  /** The six lines describing one entry. */
  function Block(serverUrl: string, e: PluginDto): (b: seq<string>)
    ensures |b| == 6
  {
    [ OpenTag(serverUrl, e),
      "\t\t<name>" + e.name + "</name>\n",
      "\t\t<vendor email=\"" + e.vendorEmail + "\" url=\"" + e.vendorUrl + "\"> " + e.vendor + " </vendor>\n",
      "\t\t<description><![CDATA[ " + e.description + " ]]></description>\n",
      "\t\t<idea-version since-build=\"" + e.release.since + "\" until-build=\"" + e.release.until + "\" />\n",
      CloseTag ]
  }

  /** `order` is an iteration order of `m`: every key exactly once, nothing else.
      The language leaves the actual order unspecified. */
  predicate Enumerates(order: seq<string>, m: map<string, PluginDto>) {
    multiset(order) == multiset(m.Keys)
  }

  lemma EnumerationFacts(order: seq<string>, m: map<string, PluginDto>)
    requires Enumerates(order, m)
    ensures |order| == |m|
    ensures forall i :: 0 <= i < |order| ==> order[i] in m
    ensures forall k :: k in m ==> k in order
  {
    assert |order| == |multiset(order)| == |multiset(m.Keys)| == |m.Keys|;
    forall i | 0 <= i < |order| ensures order[i] in m {
      assert order[i] in multiset(order);
    }
    forall k | k in m ensures k in order {
      assert k in multiset(m.Keys);
    }
  }

  /** The block of the entry under `k`; nothing for a key the map lacks. */
  function BlockFor(serverUrl: string, m: map<string, PluginDto>, k: string): seq<string> {
    if k in m then Block(serverUrl, m[k]) else []
  }

  /** One block per key of `order`, in that order. */
  function Blocks(serverUrl: string, m: map<string, PluginDto>, order: seq<string>): (bs: seq<seq<string>>)
    ensures |bs| == |order|
    ensures forall i :: 0 <= i < |order| ==> bs[i] == BlockFor(serverUrl, m, order[i])
  {
    if |order| == 0 then [] else [BlockFor(serverUrl, m, order[0])] + Blocks(serverUrl, m, order[1..])
  }

  function Flatten(bs: seq<seq<string>>): seq<string> {
    if |bs| == 0 then [] else bs[0] + Flatten(bs[1..])
  }

  lemma {:induction false} FlattenBlocks(bs: seq<seq<string>>, i: int, j: int)
    requires forall k :: 0 <= k < |bs| ==> |bs[k]| == 6
    requires 0 <= i < |bs| && 0 <= j < 6
    ensures |Flatten(bs)| == 6 * |bs|
    ensures Flatten(bs)[6 * i + j] == bs[i][j]
  {
    if i == 0 {
      FlattenLength(bs[1..]);
    } else {
      FlattenBlocks(bs[1..], i - 1, j);
    }
  }

  lemma {:induction false} FlattenLength(bs: seq<seq<string>>)
    requires forall k :: 0 <= k < |bs| ==> |bs[k]| == 6
    ensures |Flatten(bs)| == 6 * |bs|
  {
    if |bs| > 0 {
      FlattenLength(bs[1..]);
    }
  }

  /** The lines the manifest is written from: the header, one block per
      key in the iteration order, the closing tag. */
  function RenderLines(serverUrl: string, m: map<string, PluginDto>, order: seq<string>): (lines: seq<string>)
    requires Enumerates(order, m)
    ensures |lines| == 6 * |m| + 2
    ensures lines[0] == Header && lines[|lines| - 1] == Footer
  {
    EnumerationFacts(order, m);
    var bs := Blocks(serverUrl, m, order);
    FlattenLength(bs);
    [Header] + Flatten(bs) + [Footer]
  }

  /** Lines `1 + 6i` to `6 + 6i` are the block of the i-th key of the iteration order. */
  lemma RenderedBlock(serverUrl: string, m: map<string, PluginDto>, order: seq<string>, i: int, j: int)
    requires Enumerates(order, m)
    requires 0 <= i < |order| && 0 <= j < 6
    ensures |order| == |m| && order[i] in m
    ensures RenderLines(serverUrl, m, order)[1 + 6 * i + j] == Block(serverUrl, m[order[i]])[j]
  {
    EnumerationFacts(order, m);
    var bs := Blocks(serverUrl, m, order);
    assert bs[i] == Block(serverUrl, m[order[i]]);
    FlattenBlocks(bs, i, j);
  }

  function Concat(lines: seq<string>): (s: string)
    ensures |lines| > 0 ==> IsPrefix(lines[0], s)
  {
    if |lines| == 0 then "" else lines[0] + Concat(lines[1..])
  }

  /** The manifest document for `m` listed in the order `order`. */
  function Render(serverUrl: string, m: map<string, PluginDto>, order: seq<string>): (doc: string)
    requires Enumerates(order, m)
    ensures IsPrefix(Header, doc)
  {
    Concat(RenderLines(serverUrl, m, order))
  }

  /** The text of `s` up to its first double quote. */
  function TakeUntilQuote(s: string): (r: string)
    ensures '"' !in r && IsPrefix(r, s)
    ensures |r| < |s| ==> s[|r|] == '"'
  {
    if |s| == 0 || s[0] == '"' then "" else [s[0]] + TakeUntilQuote(s[1..])
  }

  /** The `id` attribute of a plugin opening tag, read back from the line. */
  function IdOf(line: string): Option<string> {
    if IsPrefix(IdOpen, line) then Some(TakeUntilQuote(line[|IdOpen|..])) else None
  }

  /** The `url` attribute of a plugin opening tag, read back from the line. */
  function UrlOf(line: string): Option<string> {
    if IsPrefix(IdOpen, line) then
      var rest := line[|IdOpen|..];
      var after := rest[|TakeUntilQuote(rest)|..];
      if IsPrefix(UrlOpen, after) then Some(TakeUntilQuote(after[|UrlOpen|..])) else None
    else None
  }

  lemma {:induction false} TakeUntilQuoteStops(x: string, y: string)
    requires '"' !in x
    ensures TakeUntilQuote(x + y) == x + TakeUntilQuote(y)
  {
    if |x| == 0 {
      assert x + y == y;
    } else {
      assert (x + y)[0] == x[0] && x[0] != '"';
      assert (x + y)[1..] == x[1..] + y;
      TakeUntilQuoteStops(x[1..], y);
      assert x == [x[0]] + x[1..];
    }
  }

  lemma IdOfLine(x: string, rest: string)
    requires '"' !in x && |rest| > 0 && rest[0] == '"'
    ensures IdOf(IdOpen + x + rest) == Some(x)
  {
    var line := IdOpen + x + rest;
    assert line[..|IdOpen|] == IdOpen;
    assert line[|IdOpen|..] == x + rest;
    assert TakeUntilQuote(rest) == "";
    TakeUntilQuoteStops(x, rest);
  }

  lemma UrlOfLine(x: string, u: string, tail: string)
    requires '"' !in x && '"' !in u && |tail| > 0 && tail[0] == '"'
    ensures UrlOf(IdOpen + x + UrlOpen + u + tail) == Some(u)
  {
    var line := IdOpen + x + UrlOpen + u + tail;
    var rest := x + (UrlOpen + u + tail);
    assert line[..|IdOpen|] == IdOpen;
    assert line[|IdOpen|..] == rest;
    IdOfLine(x, UrlOpen + u + tail);
    assert IdOf(IdOpen + x + (UrlOpen + u + tail)) == Some(x);
    assert IdOpen + x + (UrlOpen + u + tail) == line;
    var after := rest[|x|..];
    assert after == UrlOpen + (u + tail);
    assert after[..|UrlOpen|] == UrlOpen;
    assert after[|UrlOpen|..] == u + tail;
    assert TakeUntilQuote(tail) == "";
    TakeUntilQuoteStops(u, tail);
  }

  /** Reading the opening tag back yields the entry's id and download address,
      as long as neither contains a double quote (nothing is escaped). */
  lemma OpenTagRoundTrip(serverUrl: string, e: PluginDto)
    requires '"' !in e.xmlId && '"' !in UrlAttr(serverUrl, e)
    ensures IdOf(OpenTag(serverUrl, e)) == Some(e.xmlId)
    ensures UrlOf(OpenTag(serverUrl, e)) == Some(UrlAttr(serverUrl, e))
  {
    var url := UrlAttr(serverUrl, e);
    var tail := "\" version=\"" + e.release.version + "\">\n";
    assert OpenTag(serverUrl, e) == IdOpen + e.xmlId + UrlOpen + url + tail;
    assert OpenTag(serverUrl, e) == IdOpen + e.xmlId + (UrlOpen + url + tail);
    IdOfLine(e.xmlId, UrlOpen + url + tail);
    UrlOfLine(e.xmlId, url, tail);
  }

  lemma RenderedOpenTag(serverUrl: string, m: map<string, PluginDto>, order: seq<string>, i: int)
    requires Enumerates(order, m) && KeyedByXmlId(m)
    requires 0 <= i < |order|
    requires order[i] in m ==> '"' !in order[i] && '"' !in UrlAttr(serverUrl, m[order[i]])
    ensures |order| == |m| && order[i] in m
    ensures IdOf(RenderLines(serverUrl, m, order)[1 + 6 * i]) == Some(order[i])
    ensures UrlOf(RenderLines(serverUrl, m, order)[1 + 6 * i]) == Some(UrlAttr(serverUrl, m[order[i]]))
  {
    RenderedBlock(serverUrl, m, order, i, 0);
    var e := m[order[i]];
    var line := RenderLines(serverUrl, m, order)[1 + 6 * i];
    assert line == OpenTag(serverUrl, e) by {
      assert Block(serverUrl, e)[0] == OpenTag(serverUrl, e);
    }
    OpenTagRoundTrip(serverUrl, e);
    assert e.xmlId == order[i];
  }

  /** The opening tags carry exactly the map's keys, one each, and each
      points at `<serverUrl>/files/<artifact file>`: the manifest lists every
      plugin once, whatever the iteration order. */
  lemma RenderedIdsAreKeys(serverUrl: string, m: map<string, PluginDto>, order: seq<string>)
    requires Enumerates(order, m) && KeyedByXmlId(m)
    requires forall k :: k in m ==> '"' !in k && '"' !in UrlAttr(serverUrl, m[k])
    ensures |order| == |m|
    ensures forall i :: 0 <= i < |order| ==>
              IdOf(RenderLines(serverUrl, m, order)[1 + 6 * i]) == Some(order[i])
    ensures forall i :: 0 <= i < |order| ==>
              order[i] in m && UrlOf(RenderLines(serverUrl, m, order)[1 + 6 * i])
              == Some(serverUrl + "/" + PluginDownloadDir + "/" + m[order[i]].release.file)
  {
    EnumerationFacts(order, m);
    forall i | 0 <= i < |order|
      ensures IdOf(RenderLines(serverUrl, m, order)[1 + 6 * i]) == Some(order[i])
      ensures UrlOf(RenderLines(serverUrl, m, order)[1 + 6 * i]) == Some(UrlAttr(serverUrl, m[order[i]]))
    {
      RenderedOpenTag(serverUrl, m, order, i);
    }
  }

  /** `f` applied to every element of `s`. */
  function MapSeq<T>(f: string -> T, s: seq<string>): (r: seq<T>)
    ensures |r| == |s|
    ensures forall i :: 0 <= i < |s| ==> r[i] == f(s[i])
  {
    if |s| == 0 then [] else [f(s[0])] + MapSeq(f, s[1..])
  }

  lemma MapSeqAppend<T>(f: string -> T, a: seq<string>, b: seq<string>)
    ensures MapSeq(f, a + b) == MapSeq(f, a) + MapSeq(f, b)
  {
    var l, r := MapSeq(f, a + b), MapSeq(f, a) + MapSeq(f, b);
    forall i | 0 <= i < |a + b| ensures l[i] == r[i] {
      if i < |a| { assert (a + b)[i] == a[i]; } else { assert (a + b)[i] == b[i - |a|]; }
    }
  }

  lemma {:induction false} MapSeqRemove<T>(f: string -> T, s: seq<string>, j: int)
    requires 0 <= j < |s|
    ensures multiset(MapSeq(f, s)) == multiset(MapSeq(f, s[..j] + s[j + 1..])) + multiset{f(s[j])}
  {
    var rest := s[..j] + s[j + 1..];
    if j == 0 {
      assert rest == s[1..];
      assert MapSeq(f, s) == [f(s[0])] + MapSeq(f, s[1..]);
    } else {
      var tail := s[1..];
      var restTail := tail[..j - 1] + tail[j..];
      assert rest == [s[0]] + restTail;
      assert MapSeq(f, rest) == [f(s[0])] + MapSeq(f, restTail);
      MapSeqRemove(f, tail, j - 1);
      assert tail[j - 1] == s[j];
      assert MapSeq(f, s) == [f(s[0])] + MapSeq(f, tail);
      assert multiset(MapSeq(f, s)) == multiset{f(s[0])} + multiset(MapSeq(f, tail));
      assert multiset(MapSeq(f, rest)) == multiset{f(s[0])} + multiset(MapSeq(f, restTail));
    }
  }

  lemma MultisetRemove(s1: seq<string>, s2: seq<string>, j: int)
    requires multiset(s1) == multiset(s2)
    requires |s1| > 0 && 0 <= j < |s2| && s2[j] == s1[0]
    ensures multiset(s1[1..]) == multiset(s2[..j] + s2[j + 1..])
  {
    var x := s1[0];
    assert s2 == s2[..j] + [x] + s2[j + 1..];
    assert s1 == [x] + s1[1..];
    assert multiset(s1[1..]) == multiset(s1) - multiset{x};
    assert multiset(s2[..j] + s2[j + 1..]) == multiset(s2) - multiset{x};
  }

  /** Mapping a permutation gives a permutation. */
  lemma {:induction false} MapSeqPermutation<T>(f: string -> T, s1: seq<string>, s2: seq<string>)
    requires multiset(s1) == multiset(s2)
    ensures multiset(MapSeq(f, s1)) == multiset(MapSeq(f, s2))
    decreases |s1|
  {
    if |s1| > 0 {
      assert s1[0] in multiset(s2);
      var j :| 0 <= j < |s2| && s2[j] == s1[0];
      MultisetRemove(s1, s2, j);
      MapSeqPermutation(f, s1[1..], s2[..j] + s2[j + 1..]);
      MapSeqRemove(f, s2, j);
      assert MapSeq(f, s1) == [f(s1[0])] + MapSeq(f, s1[1..]);
    }
  }

  /** Any two iteration orders give the same blocks, only arranged differently. */
  lemma RenderOrderIndependent(serverUrl: string, m: map<string, PluginDto>, o1: seq<string>, o2: seq<string>)
    requires Enumerates(o1, m) && Enumerates(o2, m)
    ensures multiset(Blocks(serverUrl, m, o1)) == multiset(Blocks(serverUrl, m, o2))
  {
    var f := k => BlockFor(serverUrl, m, k);
    MapSeqPermutation(f, o1, o2);
    assert Blocks(serverUrl, m, o1) == MapSeq(f, o1);
    assert Blocks(serverUrl, m, o2) == MapSeq(f, o2);
  }
}

=== FILE: merger.dfy ===
/** Building manifest entries and merging them into one map keyed by plugin
    id: remote entries are inserted first, in order, then local ones, and a
    later insertion silently replaces an earlier entry with the same key. */
module Merger {
  import opened Records
  import Paths

  /** The catalog record a remote entry was built from. */
  function PluginOf(e: PluginDto): Plugin {
    Plugin(e.id, e.name, e.xmlId, e.description)
  }

  /** The catalog release an entry publishes. */
  function ReleaseOf(e: PluginDto): PluginRelease {
    PluginRelease(e.release.id, e.release.version, e.release.since, e.release.until, e.release.file)
  }

  /** The operator record a local entry was built from, with its artifact's file name. */
  function LocalOf(e: PluginDto): LocalPlugin {
    LocalPlugin(e.xmlId, e.release.version, e.release.since, e.release.until, e.release.file,
                e.name, e.vendor, e.vendorEmail, e.vendorUrl, e.description)
  }

  /** The entry for a catalog plugin and its selected release: nothing of
      either is lost, and the vendor fields stay empty. */
  function RemoteEntry(plugin: Plugin, r: PluginRelease): (e: PluginDto)
    ensures PluginOf(e) == plugin && ReleaseOf(e) == r
    ensures e.vendor == e.vendorEmail == e.vendorUrl == ""
  {
    PluginDto(plugin.id, plugin.name, plugin.xmlId, plugin.description, "", "", "",
              ReleaseDto(r.id, r.file, r.since, r.until, r.version))
  }

  /** The entry for a local plugin: keyed by the plugin's id, with both
      numeric ids zero and only the last element of the archive path kept. */
  function LocalEntry(p: LocalPlugin): (e: PluginDto)
    ensures LocalOf(e) == p.(file := Paths.Base(p.file))
    ensures e.id == 0 && e.release.id == 0
  {
    PluginDto(0, p.name, p.id, p.description, p.vendor, p.vendorEmail, p.vendorUrl,
              ReleaseDto(0, Paths.Base(p.file), p.since, p.until, p.version))
  }

  function LocalEntries(locals: seq<LocalPlugin>): (es: seq<PluginDto>)
    ensures |es| == |locals|
    ensures forall i :: 0 <= i < |locals| ==> es[i] == LocalEntry(locals[i])
  {
    if |locals| == 0 then [] else LocalEntries(locals[..|locals| - 1]) + [LocalEntry(locals[|locals| - 1])]
  }

  /** The ids a sequence of entries is keyed by. */
  function XmlIds(es: seq<PluginDto>): set<string> {
    set i | 0 <= i < |es| :: es[i].xmlId
  }

  function LocalIds(locals: seq<LocalPlugin>): set<string> {
    set i | 0 <= i < |locals| :: locals[i].id
  }

  lemma XmlIdsSnoc(es: seq<PluginDto>, e: PluginDto)
    ensures XmlIds(es + [e]) == XmlIds(es) + {e.xmlId}
  {
    var es' := es + [e];
    assert forall i :: 0 <= i < |es| ==> es'[i] == es[i];
    assert es'[|es|] == e;
  }

  /** Every entry sits under its own id. */
  predicate KeyedByXmlId(m: map<string, PluginDto>) {
    forall k :: k in m ==> m[k].xmlId == k
  }

  /** `es[i]` is the last entry of `es` with its id. */
  predicate IsLastWithId(es: seq<PluginDto>, i: int) {
    0 <= i < |es| && forall j :: i < j < |es| ==> es[j].xmlId != es[i].xmlId
  }

  /** The map after inserting each entry of `es`, in order, under its id. */
  function InsertAll(m: map<string, PluginDto>, es: seq<PluginDto>): (r: map<string, PluginDto>)
    ensures r.Keys == m.Keys + XmlIds(es)
    ensures forall k :: k in r ==> (k in m && r[k] == m[k]) || r[k] in es
  {
    if |es| == 0 then m
    else
      var init := es[..|es| - 1];
      var last := es[|es| - 1];
      var prev := InsertAll(m, init);
      XmlIdsSnoc(init, last);
      assert es == init + [last];
      prev[last.xmlId := last]
  }

  /** The last entry inserted with a given id is the one that stays. */
  lemma {:induction false} InsertAllLastWins(m: map<string, PluginDto>, es: seq<PluginDto>, i: int)
    requires IsLastWithId(es, i)
    ensures es[i].xmlId in InsertAll(m, es)
    ensures InsertAll(m, es)[es[i].xmlId] == es[i]
  {
    if i < |es| - 1 {
      InsertAllLastWins(m, es[..|es| - 1], i);
    }
  }

  /** An id no entry carries keeps what the map held before. */
  lemma {:induction false} InsertAllKeepsOthers(m: map<string, PluginDto>, es: seq<PluginDto>, k: string)
    requires forall j :: 0 <= j < |es| ==> es[j].xmlId != k
    ensures k in InsertAll(m, es) <==> k in m
    ensures k in m ==> InsertAll(m, es)[k] == m[k]
  {
    if |es| > 0 {
      InsertAllKeepsOthers(m, es[..|es| - 1], k);
    }
  }

  lemma {:induction false} InsertAllKeyedByXmlId(m: map<string, PluginDto>, es: seq<PluginDto>)
    requires KeyedByXmlId(m)
    ensures KeyedByXmlId(InsertAll(m, es))
  {
    if |es| > 0 {
      InsertAllKeyedByXmlId(m, es[..|es| - 1]);
    }
  }

  /** The map of all remote entries, overwritten by all local plugins. */
  function Merge(remote: seq<PluginDto>, locals: seq<LocalPlugin>): (m: map<string, PluginDto>)
    ensures m.Keys == XmlIds(remote) + LocalIds(locals)
    ensures KeyedByXmlId(m)
    ensures forall k :: k in m ==> m[k] in remote || exists i :: 0 <= i < |locals| && m[k] == LocalEntry(locals[i])
  {
    var es := LocalEntries(locals);
    assert XmlIds(es) == LocalIds(locals) by {
      assert forall i :: 0 <= i < |locals| ==> es[i].xmlId == locals[i].id;
    }
    InsertAllKeyedByXmlId(map[], remote);
    InsertAllKeyedByXmlId(InsertAll(map[], remote), es);
    InsertAll(InsertAll(map[], remote), es)
  }

  /** A local plugin replaces whatever the catalog supplied under its id; with
      several local plugins of one id, the last one wins. */
  lemma LocalWins(remote: seq<PluginDto>, locals: seq<LocalPlugin>, i: int)
    requires 0 <= i < |locals|
    requires forall j :: i < j < |locals| ==> locals[j].id != locals[i].id
    ensures locals[i].id in Merge(remote, locals)
    ensures Merge(remote, locals)[locals[i].id] == LocalEntry(locals[i])
  {
    InsertAllLastWins(InsertAll(map[], remote), LocalEntries(locals), i);
  }

  /** An id with no local plugin keeps the entry the remote plugins left. */
  lemma RemoteKept(remote: seq<PluginDto>, locals: seq<LocalPlugin>, k: string)
    requires k !in LocalIds(locals)
    ensures k in Merge(remote, locals) <==> k in XmlIds(remote)
    ensures k in Merge(remote, locals) ==> Merge(remote, locals)[k] == InsertAll(map[], remote)[k]
  {
    var es := LocalEntries(locals);
    forall j | 0 <= j < |es| ensures es[j].xmlId != k {
      assert es[j].xmlId == locals[j].id;
    }
    InsertAllKeepsOthers(InsertAll(map[], remote), es, k);
  }

  /** Among remote plugins, the last one processed with an id is the one kept
      (unless a local plugin replaces it). */
  lemma RemoteLastWins(remote: seq<PluginDto>, locals: seq<LocalPlugin>, i: int)
    requires IsLastWithId(remote, i)
    requires remote[i].xmlId !in LocalIds(locals)
    ensures Merge(remote, locals)[remote[i].xmlId] == remote[i]
  {
    InsertAllLastWins(map[], remote, i);
    RemoteKept(remote, locals, remote[i].xmlId);
  }
}

=== FILE: outcomes.dfy ===
/** The ways a repository build can stop, and the result type that carries them. */
module Outcomes {

  /** Every condition on which the builder gives up the whole build. */
  datatype BuildError =
    | NoPluginsConfigured
    | CatalogUnavailable(url: string)
    | MalformedResponse(url: string)
    | NoReleasesFound(pluginId: string)
    | UnsafeArtifactName(file: string)
    | DownloadFailed(url: string)
    | LocalArtifactMissing(path: string)
    | NotARegularFile(path: string)
    | ManifestAlreadyExists(path: string)

  datatype Result<+T> = Success(value: T) | Failure(error: BuildError)

  datatype Option<+T> = None | Some(value: T)
}

=== FILE: paths.dfy ===
/** Slash-separated file paths as the builder forms them: the last element of
    a path, `filepath.Join` with the lexical cleaning it applies, the places
    in the output tree the builder writes to, and the file a static file
    server rooted at the output tree answers for a URL. */
module Paths {
  import opened Records
  import opened Outcomes

  predicate IsPrefix(pre: string, s: string) {
    |pre| <= |s| && s[..|pre|] == pre
  }

  /** `p` is the directory `dir` itself or lies somewhere below it. */
  predicate Under(dir: string, p: string) {
    p == dir || IsPrefix(dir + "/", p)
  }

  /** `p` with every trailing separator removed. */
  function StripTrailingSlashes(p: string): (r: string)
    ensures IsPrefix(r, p)
    ensures r == "" || r[|r| - 1] != '/'
    ensures forall i :: |r| <= i < |p| ==> p[i] == '/'
  {
    if |p| > 0 && p[|p| - 1] == '/' then StripTrailingSlashes(p[..|p| - 1]) else p
  }

  /** The part of `p` after its last separator (all of `p` when there is none). */
  function LastSegment(p: string): (r: string)
    ensures '/' !in r
    ensures |r| <= |p| && p[|p| - |r|..] == r
    ensures |r| < |p| ==> p[|p| - |r| - 1] == '/'
  {
    if |p| == 0 || p[|p| - 1] == '/' then "" else LastSegment(p[..|p| - 1]) + [p[|p| - 1]]
  }

  /** The last element of a path: trailing separators are dropped first; the
      empty path gives "." and a path of separators only gives "/". */
  function Base(p: string): (r: string)
    ensures r != ""
    ensures r == "/" || '/' !in r
    ensures p != "" && '/' !in p ==> r == p
  {
    if p == "" then "."
    else
      var q := StripTrailingSlashes(p);
      if q == "" then "/" else LastSegment(q)
  }

  /** Taking the last element twice changes nothing. */
  lemma BaseIdempotent(p: string)
    ensures Base(Base(p)) == Base(p)
  {
    var r := Base(p);
    if r == "/" {
      assert StripTrailingSlashes(r) == StripTrailingSlashes("");
    }
  }

  /** The elements of `p`: the texts between its separators, empty ones
      included, as `strings.Split(p, "/")` gives them. */
  function Split(p: string): (r: seq<string>)
    ensures |r| > 0
    ensures forall i :: 0 <= i < |r| ==> '/' !in r[i]
  {
    if p == "" then [""]
    else
      var init := Split(p[..|p| - 1]);
      var c := p[|p| - 1];
      if c == '/' then init + [""] else init[..|init| - 1] + [init[|init| - 1] + [c]]
  }

  /** The elements separated by single separators, as `strings.Join(elems, "/")`. */
  function JoinWithSlash(elems: seq<string>): string {
    if |elems| == 0 then ""
    else if |elems| == 1 then elems[0]
    else JoinWithSlash(elems[..|elems| - 1]) + "/" + elems[|elems| - 1]
  }

  lemma {:induction false} SplitNoSlash(x: string)
    requires '/' !in x
    ensures Split(x) == [x]
  {
    if x != "" {
      var init := x[..|x| - 1];
      assert x == init + [x[|x| - 1]];
      SplitNoSlash(init);
    }
  }

  /** Adding one character to a path either starts a new element or extends the last one. */
  lemma SplitSnoc(q: string, c: char)
    ensures var init := Split(q);
            Split(q + [c]) == if c == '/' then init + [""] else init[..|init| - 1] + [init[|init| - 1] + [c]]
  {
    assert (q + [c])[..|q + [c]| - 1] == q;
  }

  /** Putting a separator between two paths concatenates their elements. */
  lemma {:induction false} SplitAppend(a: string, b: string)
    ensures Split(a + "/" + b) == Split(a) + Split(b)
    decreases |b|
  {
    if b == "" {
      SplitSnoc(a, '/');
      assert a + "/" + b == a + ['/'];
    } else {
      var init, c := b[..|b| - 1], b[|b| - 1];
      assert b == init + [c];
      assert a + "/" + b == a + "/" + init + [c];
      SplitAppend(a, init);
      SplitAppendStep(a, init, c);
    }
  }

  lemma SplitAppendStep(a: string, init: string, c: char)
    requires Split(a + "/" + init) == Split(a) + Split(init)
    ensures Split(a + "/" + init + [c]) == Split(a) + Split(init + [c])
  {
    SplitSnoc(a + "/" + init, c);
    SplitSnoc(init, c);
    if c != '/' {
      ExtendLast(Split(a), Split(init), c);
    } else {
      assert Split(a) + Split(init) + [""] == Split(a) + (Split(init) + [""]);
    }
  }

  lemma ExtendLast(xs: seq<string>, ys: seq<string>, c: char)
    requires |ys| > 0
    ensures var zs := xs + ys;
            zs[..|zs| - 1] + [zs[|zs| - 1] + [c]] == xs + (ys[..|ys| - 1] + [ys[|ys| - 1] + [c]])
  {
    var zs := xs + ys;
    assert zs[..|zs| - 1] == xs + ys[..|ys| - 1];
  }

  lemma {:induction false} JoinWithSlashAppend(xs: seq<string>, ys: seq<string>)
    requires |xs| > 0 && |ys| > 0
    ensures JoinWithSlash(xs + ys) == JoinWithSlash(xs) + "/" + JoinWithSlash(ys)
    decreases |ys|
  {
    var zs := xs + ys;
    if |ys| == 1 {
      assert zs[..|zs| - 1] == xs;
    } else {
      var init := ys[..|ys| - 1];
      assert zs[..|zs| - 1] == xs + init;
      JoinWithSlashAppend(xs, init);
    }
  }

  /** A join starts with its first element. */
  lemma {:induction false} JoinWithSlashHead(elems: seq<string>)
    requires |elems| > 0
    ensures IsPrefix(elems[0], JoinWithSlash(elems))
  {
    if |elems| > 1 {
      var init := elems[..|elems| - 1];
      JoinWithSlashHead(init);
      var j := JoinWithSlash(init);
      assert JoinWithSlash(elems) == j + ("/" + elems[|elems| - 1]);
      assert JoinWithSlash(elems)[..|elems[0]|] == j[..|elems[0]|];
    }
  }

  /** Splitting undoes joining, for elements without separators. */
  lemma {:induction false} SplitJoinWithSlash(elems: seq<string>)
    requires |elems| > 0
    requires forall i :: 0 <= i < |elems| ==> '/' !in elems[i]
    ensures Split(JoinWithSlash(elems)) == elems
  {
    var last := elems[|elems| - 1];
    SplitNoSlash(last);
    if |elems| > 1 {
      var init := elems[..|elems| - 1];
      assert forall i :: 0 <= i < |init| ==> init[i] == elems[i];
      SplitJoinWithSlash(init);
      assert JoinWithSlash(elems) == JoinWithSlash(init) + "/" + last;
      SplitAppend(JoinWithSlash(init), last);
      assert elems == init + [last];
    }
  }

  /** Joining undoes splitting. */
  lemma {:induction false} JoinWithSlashSplit(p: string)
    ensures JoinWithSlash(Split(p)) == p
  {
    if p != "" {
      var q := p[..|p| - 1];
      var c := p[|p| - 1];
      assert p == q + [c];
      JoinWithSlashSplit(q);
      var init := Split(q);
      var n := |init|;
      if c == '/' {
        assert (init + [""])[..n] == init;
      } else if n == 1 {
        assert Split(p) == [init[0] + [c]];
      } else {
        var elems := init[..n - 1] + [init[n - 1] + [c]];
        assert elems[..n - 1] == init[..n - 1];
        var front := JoinWithSlash(init[..n - 1]) + "/";
        assert q == front + init[n - 1];
        AppendAssoc(front, init[n - 1], [c]);
      }
    }
  }

  predicate Rooted(p: string) {
    |p| > 0 && p[0] == '/'
  }

  /** One element of `filepath.Clean`'s lexical processing, against the
      elements kept so far: an empty or `.` element is dropped, `..` removes
      the last kept element unless that is itself `..`, and with nothing to
      remove it is dropped in a rooted path and kept in a relative one. */
  function Step(kept: seq<string>, e: string, rooted: bool): seq<string> {
    if e == "" || e == "." then kept
    else if e != ".." then kept + [e]
    else if |kept| > 0 && kept[|kept| - 1] != ".." then kept[..|kept| - 1]
    else if rooted then kept
    else kept + [e]
  }

  /** Processes the elements `es`, in order, starting from `kept`. */
  function Resolve(kept: seq<string>, es: seq<string>, rooted: bool): seq<string>
    decreases |es|
  {
    if |es| == 0 then kept else Resolve(Step(kept, es[0], rooted), es[1..], rooted)
  }

  lemma {:induction false} ResolveAppend(kept: seq<string>, xs: seq<string>, ys: seq<string>, rooted: bool)
    ensures Resolve(kept, xs + ys, rooted) == Resolve(Resolve(kept, xs, rooted), ys, rooted)
    decreases |xs|
  {
    if |xs| > 0 {
      assert (xs + ys)[0] == xs[0];
      assert (xs + ys)[1..] == xs[1..] + ys;
      ResolveAppend(Step(kept, xs[0], rooted), xs[1..], ys, rooted);
    } else {
      assert xs + ys == ys;
    }
  }

  /** The elements of `es` that are neither empty nor `.`. */
  function Proper(es: seq<string>): (r: seq<string>)
    ensures forall i :: 0 <= i < |r| ==> r[i] != "" && r[i] != "." && r[i] in es
  {
    if |es| == 0 then [] else (if es[0] == "" || es[0] == "." then [] else [es[0]]) + Proper(es[1..])
  }

  /** Without `..` elements, processing only drops the empty and `.` ones. */
  lemma {:induction false} ResolveWithoutParent(kept: seq<string>, es: seq<string>, rooted: bool)
    requires ".." !in es
    ensures Resolve(kept, es, rooted) == kept + Proper(es)
    decreases |es|
  {
    if |es| > 0 {
      assert es == [es[0]] + es[1..];
      ResolveWithoutParent(Step(kept, es[0], rooted), es[1..], rooted);
    }
  }

  /** How kept elements are written: a leading separator for a rooted path,
      single separators in between, and "." when nothing is written at all. */
  function Spell(rooted: bool, kept: seq<string>): (r: string)
    ensures r != ""
  {
    var s := (if rooted then "/" else "") + JoinWithSlash(kept);
    if s == "" then "." else s
  }

  /** `filepath.Clean`: the shortest path that names the same file by purely
      lexical processing. */
  function Clean(p: string): (r: string)
    ensures r != ""
  {
    Spell(Rooted(p), Resolve([], Split(p), Rooted(p)))
  }

  /** The elements of a cleaned path: none is empty, `.` or holds a
      separator, a rooted path has no `..`, and every `..` comes before every
      other element. */
  ghost predicate Normal(rooted: bool, kept: seq<string>) {
    && (forall i :: 0 <= i < |kept| ==> kept[i] != "" && kept[i] != "." && '/' !in kept[i])
    && (rooted ==> ".." !in kept)
    && (forall i, j :: 0 <= i < j < |kept| && kept[j] == ".." ==> kept[i] == "..")
  }

  lemma {:induction false} ResolveIsNormal(kept: seq<string>, es: seq<string>, rooted: bool)
    requires Normal(rooted, kept)
    requires forall i :: 0 <= i < |es| ==> '/' !in es[i]
    ensures Normal(rooted, Resolve(kept, es, rooted))
    decreases |es|
  {
    if |es| > 0 {
      var next := Step(kept, es[0], rooted);
      if es[0] == ".." && |kept| > 0 && kept[|kept| - 1] != ".." {
        assert forall i :: 0 <= i < |next| ==> next[i] == kept[i];
      }
      assert Normal(rooted, next);
      ResolveIsNormal(next, es[1..], rooted);
    }
  }

  /** Processing the elements of a cleaned path changes nothing. */
  lemma {:induction false} ResolveNormal(rooted: bool, kept: seq<string>)
    requires Normal(rooted, kept)
    ensures Resolve([], kept, rooted) == kept
    decreases |kept|
  {
    if |kept| > 0 {
      var init := kept[..|kept| - 1];
      var e := kept[|kept| - 1];
      assert Normal(rooted, init);
      ResolveNormal(rooted, init);
      assert kept == init + [e];
      ResolveAppend([], init, [e], rooted);
      assert [e][1..] == [];
      assert Resolve(init, [e], rooted) == Step(init, e, rooted);
    }
  }

  /** Cleaning a cleaned path changes nothing. */
  lemma CleanRoot()
    ensures Clean("/") == "/"
  {
    assert "/" == "" + ['/'];
    SplitSnoc("", '/');
    var es := Split("/");
    assert es == ["", ""];
    assert Resolve([], es, true) == Resolve([], es[1..], true) == Resolve([], [], true);
  }

  lemma CleanDot()
    ensures Clean(".") == "."
  {
    SplitNoSlash(".");
    assert Resolve([], ["."], false) == Resolve([], [], false);
  }

  lemma CleanIdempotent(p: string)
    ensures Clean(Clean(p)) == Clean(p)
  {
    var rooted := Rooted(p);
    var kept := Resolve([], Split(p), rooted);
    ResolveIsNormal([], Split(p), rooted);
    if kept == [] {
      if rooted {
        CleanRoot();
      } else {
        CleanDot();
      }
    } else {
      CleanSpelled(rooted, kept);
    }
  }

  /** Spelling normal elements and cleaning the result gives them back. */
  lemma CleanSpelled(rooted: bool, kept: seq<string>)
    requires Normal(rooted, kept) && kept != []
    ensures Clean(Spell(rooted, kept)) == Spell(rooted, kept)
  {
    var j := JoinWithSlash(kept);
    JoinWithSlashHead(kept);
    SplitJoinWithSlash(kept);
    ResolveNormal(rooted, kept);
    var c := Spell(rooted, kept);
    if rooted {
      assert c == "" + "/" + j;
      SplitAppend("", j);
      ResolveAppend([], [""], kept, rooted);
      assert Resolve([], [""], true) == [];
    } else {
      assert c == j && j[0] == kept[0][0];
    }
  }

  /** `filepath.Join`: the elements from the first non-empty one on,
      separated by single separators and cleaned; the empty path when every
      element is empty. */
  function Join(elems: seq<string>): (r: string)
    ensures r == "" <==> forall i :: 0 <= i < |elems| ==> elems[i] == ""
  {
    if |elems| == 0 then ""
    else if elems[0] == "" then Join(elems[1..])
    else Clean(JoinWithSlash(elems))
  }

  /** No element of `file` is `..`: joined below a directory, it stays there. */
  predicate Confined(file: string) {
    ".." !in Split(file)
  }

  /** A name the builder may write below the artifact directory: it has an
      element that is neither empty nor `.`, so it names something strictly
      inside the directory, and no `..` element, so it stays there. */
  predicate SafeArtifactName(file: string) {
    Confined(file) && Proper(Split(file)) != []
  }

  /** A single file name: not empty, not `.` or `..`, and without separators. */
  predicate PlainName(name: string) {
    name != "" && name != "." && name != ".." && '/' !in name
  }

  lemma PlainNameConfined(name: string)
    requires PlainName(name)
    ensures Confined(name) && Proper(Split(name)) == [name] && SafeArtifactName(name)
  {
    SplitNoSlash(name);
    assert Proper([name]) == [name] + Proper([]);
  }

  /** A single file name is already clean. */
  lemma CleanPlainName(name: string)
    requires PlainName(name)
    ensures Clean(name) == name
  {
    SplitNoSlash(name);
    assert name[0] in name;
    assert Resolve([], [name], false) == Resolve([name], [], false);
  }

  /** The last element of a path is the last of its elements once trailing
      separators are dropped. */
  lemma BaseIsLastElement(p: string)
    ensures StripTrailingSlashes(p) != "" ==>
              Base(p) == Split(StripTrailingSlashes(p))[|Split(StripTrailingSlashes(p))| - 1]
  {
    LastSegmentIsLastElement(StripTrailingSlashes(p));
  }

  lemma {:induction false} LastSegmentIsLastElement(q: string)
    ensures LastSegment(q) == Split(q)[|Split(q)| - 1]
  {
    if q != "" && q[|q| - 1] != '/' {
      LastSegmentIsLastElement(q[..|q| - 1]);
    }
  }

  /** The last element of `dir/name` is `name`. */
  lemma BaseOfChild(dir: string, name: string)
    requires name != "" && '/' !in name
    ensures Base(dir + "/" + name) == name
  {
    var p := dir + "/" + name;
    assert StripTrailingSlashes(p) == p;
    BaseIsLastElement(p);
    SplitAppend(dir, name);
    SplitNoSlash(name);
  }

  /** A leading `./` does not change which file a relative path names. */
  lemma CleanDotSlash(p: string)
    requires !Rooted(p)
    ensures Clean("./" + p) == Clean(p)
  {
    SplitAppend(".", p);
    SplitNoSlash(".");
    assert "./" + p == "." + "/" + p;
    assert ("./" + p)[0] == '.';
    var es := Split("./" + p);
    assert es[0] == "." && es[1..] == Split(p);
  }

  /** The directory under the output tree that receives the artifacts. */
  function FilesDir(outputDir: string): string {
    Join([outputDir, PluginDownloadDir])
  }

  /** Where an artifact with the given file name is written. */
  function ArtifactPath(outputDir: string, file: string): string {
    Join([outputDir, PluginDownloadDir, file])
  }

  /** Where the manifest is written. */
  function ManifestPath(outputDir: string): string {
    Join([outputDir, ManifestFileName])
  }

  /** The cleaned elements of the output directory. */
  function DirElems(outputDir: string): seq<string> {
    Resolve([], Split(outputDir), Rooted(outputDir))
  }

  /** The text every path below the output directory starts with. */
  function DirPrefix(outputDir: string): string {
    var kept := DirElems(outputDir);
    (if Rooted(outputDir) then "/" else "") + (if kept == [] then "" else JoinWithSlash(kept) + "/")
  }

  /** `file` with its empty and `.` elements dropped: its path below the
      files directory. */
  function TidyName(file: string): string {
    JoinWithSlash(Proper(Split(file)))
  }

  /** Cleaning `dir/tail` processes the elements of `tail` after those of `dir`. */
  lemma CleanBelow(dir: string, tail: string)
    requires dir != ""
    ensures Clean(dir + "/" + tail)
         == Spell(Rooted(dir), Resolve(DirElems(dir), Split(tail), Rooted(dir)))
  {
    var p := dir + "/" + tail;
    assert p[0] == dir[0];
    SplitAppend(dir, tail);
    ResolveAppend([], Split(dir), Split(tail), Rooted(dir));
  }

  /** Joining relative elements below the output directory processes them
      after the directory's own elements. */
  lemma JoinBelow(outputDir: string, elems: seq<string>)
    requires |elems| > 0 && elems[0] != "" && !Rooted(elems[0])
    ensures Join([outputDir] + elems)
         == Spell(Rooted(outputDir), Resolve(DirElems(outputDir), Split(JoinWithSlash(elems)), Rooted(outputDir)))
  {
    var all := [outputDir] + elems;
    var tail := JoinWithSlash(elems);
    JoinWithSlashHead(elems);
    if outputDir == "" {
      assert all[1..] == elems;
      assert tail[0] == elems[0][0];
      assert DirElems(outputDir) == Resolve(Step([], "", false), [], false);
    } else {
      JoinWithSlashAppend([outputDir], elems);
      CleanBelow(outputDir, tail);
    }
  }

  /** Spelling the output directory's elements followed by more. */
  lemma SpellBelow(outputDir: string, rest: seq<string>)
    requires |rest| > 0 && rest[0] != ""
    ensures Spell(Rooted(outputDir), DirElems(outputDir) + rest) == DirPrefix(outputDir) + JoinWithSlash(rest)
  {
    var kept := DirElems(outputDir);
    var lead := if Rooted(outputDir) then "/" else "";
    var j := JoinWithSlash(rest);
    JoinWithSlashHead(rest);
    assert |j| > 0;
    if kept == [] {
      assert kept + rest == rest;
      assert DirPrefix(outputDir) == lead + "";
    } else {
      var k := JoinWithSlash(kept);
      JoinWithSlashAppend(kept, rest);
      AppendAssoc(lead, k + "/", j);
    }
  }

  /** A relative path `name/file`, whose first element is a plain name and
      whose file has no `..` element, is processed into the directory's
      elements, the name, and the file's proper elements. */
  lemma ChildElems(outputDir: string, name: string, file: string)
    requires PlainName(name) && Confined(file)
    ensures Join([outputDir, name, file])
         == Spell(Rooted(outputDir), DirElems(outputDir) + ([name] + Proper(Split(file))))
  {
    var elems := [name, file];
    assert [outputDir, name, file] == [outputDir] + elems;
    JoinBelow(outputDir, elems);
    assert JoinWithSlash(elems) == name + "/" + file;
    SplitAppend(name, file);
    SplitNoSlash(name);
    var es := [name] + Split(file);
    assert ".." !in es;
    ResolveWithoutParent(DirElems(outputDir), es, Rooted(outputDir));
    assert es[1..] == Split(file);
  }

  /** A plain name joined to the output directory follows the directory's prefix. */
  lemma ChildPath(outputDir: string, name: string)
    requires PlainName(name)
    ensures Join([outputDir, name]) == DirPrefix(outputDir) + name
  {
    var r, kept := Rooted(outputDir), DirElems(outputDir);
    assert [outputDir, name] == [outputDir] + [name];
    JoinBelow(outputDir, [name]);
    assert JoinWithSlash([name]) == name;
    SplitNoSlash(name);
    assert [name][1..] == [];
    assert Resolve(kept, [name], r) == Resolve(kept + [name], [], r) == kept + [name];
    SpellBelow(outputDir, [name]);
  }

  lemma AppendAssoc(a: string, b: string, c: string)
    ensures a + (b + c) == (a + b) + c
  {
  }

  /** Below a plain name, a file without `..` elements lands at its tidied name. */
  lemma GrandchildPath(outputDir: string, name: string, file: string)
    requires PlainName(name) && Confined(file)
    ensures Join([outputDir, name, file])
         == Join([outputDir, name]) + (if TidyName(file) == "" then "" else "/" + TidyName(file))
  {
    GrandchildSpelled(outputDir, name, file);
    ChildPath(outputDir, name);
    var t := TidyName(file);
    AppendAssoc(DirPrefix(outputDir), name, if t == "" then "" else "/" + t);
  }

  lemma GrandchildSpelled(outputDir: string, name: string, file: string)
    requires PlainName(name) && Confined(file)
    ensures var t := TidyName(file);
            Join([outputDir, name, file]) == DirPrefix(outputDir) + (name + if t == "" then "" else "/" + t)
  {
    ChildSpelled(outputDir, name, file);
    JoinAfterName(name, Proper(Split(file)));
  }

  lemma ChildSpelled(outputDir: string, name: string, file: string)
    requires PlainName(name) && Confined(file)
    ensures Join([outputDir, name, file]) == DirPrefix(outputDir) + JoinWithSlash([name] + Proper(Split(file)))
  {
    ChildElems(outputDir, name, file);
    var tidy := Proper(Split(file));
    assert ([name] + tidy)[0] == name;
    SpellBelow(outputDir, [name] + tidy);
  }

  lemma JoinAfterName(name: string, tidy: seq<string>)
    requires PlainName(name)
    requires forall i :: 0 <= i < |tidy| ==> tidy[i] != ""
    ensures JoinWithSlash([name] + tidy)
         == name + (if JoinWithSlash(tidy) == "" then "" else "/" + JoinWithSlash(tidy))
  {
    if tidy != [] {
      JoinWithSlashAppend([name], tidy);
      JoinWithSlashHead(tidy);
    } else {
      assert [name] + tidy == [name];
    }
  }

  /** The files directory and the manifest sit side by side in the output
      directory, and an artifact whose name has no `..` element lands in the
      files directory, at its tidied name. */
  lemma OutputTreeShape(outputDir: string, file: string)
    ensures FilesDir(outputDir) == DirPrefix(outputDir) + PluginDownloadDir
    ensures ManifestPath(outputDir) == DirPrefix(outputDir) + ManifestFileName
    ensures Confined(file) ==>
              ArtifactPath(outputDir, file)
              == FilesDir(outputDir) + (if TidyName(file) == "" then "" else "/" + TidyName(file))
  {
    ChildPath(outputDir, PluginDownloadDir);
    ChildPath(outputDir, ManifestFileName);
    if Confined(file) {
      GrandchildPath(outputDir, PluginDownloadDir, file);
    }
  }

  /** A plain file name lands directly in the files directory. */
  lemma PlainArtifactPath(outputDir: string, name: string)
    requires PlainName(name)
    ensures ArtifactPath(outputDir, name) == FilesDir(outputDir) + "/" + name
  {
    PlainNameConfined(name);
    OutputTreeShape(outputDir, name);
  }

  /** Below a relative output directory, `./<dir>/files/<name>` is another
      spelling of the artifact path of `name`, and its last element is `name`. */
  lemma DotSpelledArtifact(outputDir: string, name: string)
    requires outputDir != "" && !Rooted(outputDir) && PlainName(name)
    ensures var alias := "./" + outputDir + "/" + PluginDownloadDir + "/" + name;
            Clean(alias) == ArtifactPath(outputDir, name) && Base(alias) == name
  {
    var x := outputDir + "/" + PluginDownloadDir + "/" + name;
    var alias := "./" + outputDir + "/" + PluginDownloadDir + "/" + name;
    assert alias == "./" + x;
    assert x[0] == outputDir[0];
    assert JoinWithSlash([outputDir, PluginDownloadDir, name]) == x by {
      var two := [outputDir, PluginDownloadDir];
      assert [outputDir, PluginDownloadDir, name][..2] == two;
      assert two[..1] == [outputDir];
      assert JoinWithSlash(two) == outputDir + "/" + PluginDownloadDir;
    }
    CleanDotSlash(x);
    BaseOfChild("./" + outputDir + "/" + PluginDownloadDir, name);
  }

  /** Every artifact whose name has no `..` element lands in the files
      directory, and the manifest does not: writing such artifacts can never
      touch the manifest. */
  lemma ArtifactsAvoidManifest(outputDir: string, file: string)
    ensures Confined(file) ==> Under(FilesDir(outputDir), ArtifactPath(outputDir, file))
    ensures !Under(FilesDir(outputDir), ManifestPath(outputDir))
    ensures Confined(file) ==> ArtifactPath(outputDir, file) != ManifestPath(outputDir)
  {
    OutputTreeShape(outputDir, file);
    var pre := DirPrefix(outputDir);
    var t := TidyName(file);
    var rest := if t == "" then "" else "/" + t;
    SiblingsApart(pre, PluginDownloadDir, ManifestFileName, rest);
    UnderOwnChild(FilesDir(outputDir), t);
  }

  /** A path that adds a separated tail to `dir` lies under `dir`. */
  lemma UnderOwnChild(dir: string, t: string)
    ensures Under(dir, dir + if t == "" then "" else "/" + t)
  {
    if t != "" {
      AppendAssoc(dir, "/", t);
      assert (dir + "/" + t)[..|dir + "/"|] == dir + "/";
    }
  }

  /** Two names that start differently part ways below a common prefix. */
  lemma SiblingsApart(pre: string, a: string, b: string, rest: string)
    requires a != "" && b != "" && a[0] != b[0]
    ensures !Under(pre + a, pre + b)
    ensures pre + a + rest != pre + b
  {
    assert (pre + a)[|pre|] == a[0];
    assert (pre + b)[|pre|] == b[0];
    assert (pre + a + rest)[|pre|] == a[0];
    assert (pre + a + "/")[|pre|] == a[0];
  }

  /** The elements of two names separated by one separator. */
  lemma SplitPair(a: string, b: string)
    requires '/' !in a && '/' !in b
    ensures Split(a + "/" + b) == [a, b]
  {
    SplitAppend(a, b);
    SplitNoSlash(a);
    SplitNoSlash(b);
  }

  /** The elements of `../file`. */
  lemma SplitUp(file: string)
    requires PlainName(file)
    ensures Split("../" + file) == ["..", file]
  {
    assert "../" + file == ".." + "/" + file;
    SplitPair("..", file);
  }

  /** The elements of `name/up`, for an `up` whose elements are `..` and `file`. */
  lemma SplitBelowName(name: string, up: string, file: string)
    requires PlainName(name) && Split(up) == ["..", file]
    ensures Split(JoinWithSlash([name, up])) == [name, "..", file]
  {
    assert JoinWithSlash([name, up]) == name + "/" + up;
    SplitAppend(name, up);
    SplitNoSlash(name);
  }

  /** The elements of `name/../file`. */
  lemma SplitParentOf(name: string, file: string)
    requires PlainName(name) && PlainName(file)
    ensures Split(JoinWithSlash([name, "../" + file])) == [name, "..", file]
  {
    SplitUp(file);
    SplitBelowName(name, "../" + file, file);
  }

  /** Processing `name, .., file` keeps only `file`. */
  lemma ResolveParentOf(kept: seq<string>, name: string, file: string, rooted: bool)
    requires PlainName(name) && PlainName(file)
    ensures Resolve(kept, [name, "..", file], rooted) == kept + [file]
  {
    var es := [name, "..", file];
    assert es[1..] == ["..", file] && es[2..] == [file] && es[3..] == [];
    assert (kept + [name])[..|kept + [name]| - 1] == kept;
    assert Resolve(kept, es, rooted) == Resolve(kept + [name], es[1..], rooted);
    assert Resolve(kept + [name], es[1..], rooted) == Resolve(kept, es[2..], rooted);
  }

  /** `name/../file` is `file`: a `..` element undoes the plain name before it. */
  lemma ParentUndoesChild(outputDir: string, name: string, file: string)
    requires PlainName(name) && PlainName(file)
    ensures Join([outputDir, name, "../" + file]) == Join([outputDir, file])
  {
    var up := "../" + file;
    var r, kept := Rooted(outputDir), DirElems(outputDir);
    assert [outputDir, name, up] == [outputDir] + [name, up];
    JoinBelow(outputDir, [name, up]);
    SplitParentOf(name, file);
    ResolveParentOf(kept, name, file, r);
    assert [outputDir, file] == [outputDir] + [file];
    JoinBelow(outputDir, [file]);
    assert JoinWithSlash([file]) == file;
    SplitNoSlash(file);
    assert [file][1..] == [];
    assert Resolve(kept, [file], r) == Resolve(kept + [file], [], r);
  }

  /** A release file that climbs out of the files directory can name the
      manifest, whatever the output directory. */
  lemma ParentElementReachesManifest(outputDir: string)
    ensures ArtifactPath(outputDir, "../" + ManifestFileName) == ManifestPath(outputDir)
    ensures !Confined("../" + ManifestFileName)
  {
    ParentUndoesChild(outputDir, PluginDownloadDir, ManifestFileName);
    SplitUp(ManifestFileName);
  }

  /** The path part of a URL: everything before its query or fragment. */
  function PathPart(s: string): (r: string)
    ensures IsPrefix(r, s) && '?' !in r && '#' !in r
    ensures |r| < |s| ==> s[|r|] == '?' || s[|r|] == '#'
  {
    if s == "" || s[0] == '?' || s[0] == '#' then "" else [s[0]] + PathPart(s[1..])
  }

  /** The path part ends where the first `?` or `#` begins. */
  lemma {:induction false} PathPartStops(a: string, b: string)
    requires '?' !in a && '#' !in a
    requires b == "" || b[0] == '?' || b[0] == '#'
    ensures PathPart(a + b) == a
  {
    if a == "" {
      assert a + b == b;
    } else {
      assert (a + b)[1..] == a[1..] + b;
      assert a == [a[0]] + a[1..];
      PathPartStops(a[1..], b);
    }
  }

  /** The value of a hexadecimal digit. */
  function HexDigit(c: char): Option<int> {
    if '0' <= c <= '9' then Some(c as int - '0' as int)
    else if 'a' <= c <= 'f' then Some(c as int - 'a' as int + 10)
    else if 'A' <= c <= 'F' then Some(c as int - 'A' as int + 10)
    else None
  }

  /** Percent-decoding of a URL path as `net/url` applies it: `%` followed by
      two hexadecimal digits is the byte they spell, and a `%` without them
      makes the URL invalid. */
  function PercentDecode(s: string): (r: Option<string>)
    ensures '%' !in s ==> r == Some(s)
    ensures r.Some? ==> |r.value| <= |s|
    decreases |s|
  {
    if s == "" then Some("")
    else if s[0] != '%' then
      assert s == [s[0]] + s[1..];
      var rest := PercentDecode(s[1..]);
      if rest.Some? then Some([s[0]] + rest.value) else None
    else if |s| >= 3 && HexDigit(s[1]).Some? && HexDigit(s[2]).Some? then
      var rest := PercentDecode(s[3..]);
      var b := 16 * HexDigit(s[1]).value + HexDigit(s[2]).value;
      if rest.Some? then Some([b as char] + rest.value) else None
    else None
  }

  /** The characters a URL gives a meaning of its own: a file name without
      them reads the same as a URL path. */
  predicate UrlPlain(file: string) {
    '%' !in file && '?' !in file && '#' !in file
  }

  /** The file a static file server rooted at `root` and published at
      `serverUrl` answers for `url`, as `http.FileServer(http.Dir(root))`
      finds it: the URL's path below the server, up to any query or fragment,
      percent-decoded, cleaned as a rooted path and joined under the root
      ("." when the root is empty). A URL outside the server, or with an
      invalid escape, has no file. */
  function ServedPath(root: string, serverUrl: string, url: string): (r: Option<string>)
    ensures r.Some? ==> IsPrefix(serverUrl + "/", url)
  {
    if !IsPrefix(serverUrl + "/", url) then None
    else
      match PercentDecode(PathPart(url[|serverUrl| + 1..]))
      case None => None
      case Some(p) => Some(Join([if root == "" then "." else root, Clean("/" + p)]))
  }

  lemma {:induction false} ProperOfProper(kept: seq<string>)
    requires forall i :: 0 <= i < |kept| ==> kept[i] != "" && kept[i] != "."
    ensures Proper([""] + kept) == kept
    ensures Proper(kept) == kept
    decreases |kept|
  {
    assert ([""] + kept)[1..] == kept;
    if |kept| > 0 {
      ProperOfProper(kept[1..]);
      assert kept == [kept[0]] + kept[1..];
    }
  }

  /** Serving the rooted path spelled from `kept` below `root` gives the
      root's elements followed by `kept`. */
  lemma ServedBelow(root: string, kept: seq<string>)
    requires root != "" && |kept| > 0
    requires forall i :: 0 <= i < |kept| ==> kept[i] != "" && kept[i] != "." && kept[i] != ".." && '/' !in kept[i]
    ensures Join([root, Spell(true, kept)]) == Spell(Rooted(root), DirElems(root) + kept)
  {
    var j := JoinWithSlash(kept);
    var served := Spell(true, kept);
    assert served == "" + "/" + j;
    assert JoinWithSlash([root, served]) == root + "/" + served;
    CleanBelow(root, served);
    SplitAppend("", j);
    SplitJoinWithSlash(kept);
    assert ".." !in [""] + kept;
    ResolveWithoutParent(DirElems(root), [""] + kept, Rooted(root));
    ProperOfProper(kept);
  }

  lemma ProperCons(e: string, es: seq<string>)
    ensures Proper([e] + es) == (if e == "" || e == "." then [] else [e]) + Proper(es)
  {
    assert ([e] + es)[1..] == es;
  }

  /** A leading separator adds an empty first element. */
  lemma SplitRooted(rel: string)
    ensures Split("/" + rel) == [""] + Split(rel)
  {
    assert "/" + rel == "" + "/" + rel;
    SplitAppend("", rel);
  }

  /** The elements of `name/file` are the name followed by those of the file. */
  lemma SplitChild(name: string, file: string)
    requires PlainName(name)
    ensures Split(name + "/" + file) == [name] + Split(file)
  {
    SplitAppend(name, file);
    SplitNoSlash(name);
  }

  /** Cleaning a rooted path whose elements hold no `..` keeps its proper
      elements. */
  lemma CleanRooted(rel: string)
    requires Confined(rel)
    ensures Clean("/" + rel) == Spell(true, Proper(Split(rel)))
  {
    var es := Split(rel);
    SplitRooted(rel);
    assert ("/" + rel)[0] == '/';
    assert ".." !in [""] + es;
    ResolveWithoutParent([], [""] + es, true);
    ProperCons("", es);
    assert [] + Proper([""] + es) == Proper(es);
  }

  /** The cleaned rooted form of the URL path `name/file`. */
  lemma RootedChild(name: string, file: string)
    requires PlainName(name) && Confined(file)
    ensures Clean("/" + (name + "/" + file)) == Spell(true, [name] + Proper(Split(file)))
  {
    var rel := name + "/" + file;
    SplitChild(name, file);
    assert Confined(rel);
    CleanRooted(rel);
    ProperCons(name, Split(file));
  }

  /** The server URL followed by a separator and `rest` lies below the server
      and leaves `rest` as its path. */
  lemma AfterServer(serverUrl: string, rest: string)
    ensures IsPrefix(serverUrl + "/", serverUrl + "/" + rest)
    ensures (serverUrl + "/" + rest)[|serverUrl| + 1..] == rest
  {
    assert (serverUrl + "/" + rest)[..|serverUrl| + 1] == serverUrl + "/";
  }

  /** The file served for a URL path without query, fragment or escapes. */
  lemma ServedPlain(outputDir: string, serverUrl: string, rel: string)
    requires UrlPlain(rel)
    ensures ServedPath(outputDir, serverUrl, serverUrl + "/" + rel)
         == Some(Join([if outputDir == "" then "." else outputDir, Clean("/" + rel)]))
  {
    AfterServer(serverUrl, rel);
    PathPartStops(rel, "");
    assert rel + "" == rel;
  }

  /** The current directory has no elements, just as the empty path. */
  lemma DotDirElems()
    ensures DirElems(".") == [] && DirElems("") == [] && !Rooted(".")
  {
    SplitNoSlash(".");
    assert Resolve([], ["."], false) == Resolve([], [], false);
    assert Resolve([], [""], false) == Resolve([], [], false);
  }

  /** The directory the file server is rooted at names the same elements as
      the output directory. */
  lemma ServerRoot(outputDir: string)
    ensures var root := if outputDir == "" then "." else outputDir;
            root != "" && Rooted(root) == Rooted(outputDir) && DirElems(root) == DirElems(outputDir)
  {
    DotDirElems();
  }

  /** The rooted path `/name/file`, joined below the server's root, is the
      path `name/file` below the output directory. */
  lemma ServedFileOfChild(outputDir: string, name: string, file: string)
    requires PlainName(name) && Confined(file)
    ensures Join([if outputDir == "" then "." else outputDir, Clean("/" + (name + "/" + file))])
         == Join([outputDir, name, file])
  {
    RootedChild(name, file);
    var kept := [name] + Proper(Split(file));
    var root := if outputDir == "" then "." else outputDir;
    ServerRoot(outputDir);
    ServedBelow(root, kept);
    ChildElems(outputDir, name, file);
  }

  /** The address `serverUrl/name/file`, served from the output tree, names
      the path `name/file` below it. */
  lemma ServedChild(outputDir: string, serverUrl: string, name: string, file: string)
    requires PlainName(name) && UrlPlain(name) && Confined(file) && UrlPlain(file)
    ensures ServedPath(outputDir, serverUrl, serverUrl + "/" + name + "/" + file)
         == Some(Join([outputDir, name, file]))
  {
    assert serverUrl + "/" + name + "/" + file == serverUrl + "/" + (name + "/" + file);
    ServedPlain(outputDir, serverUrl, name + "/" + file);
    ServedFileOfChild(outputDir, name, file);
  }

  /** A manifest address `serverUrl/files/<file>`, served from the output
      tree, names exactly the path the artifact `<file>` was written to, as
      long as the name has no `..` element and none of the characters a URL
      reads specially. */
  lemma ServedUrlIsArtifact(outputDir: string, serverUrl: string, file: string)
    requires Confined(file) && UrlPlain(file)
    ensures ServedPath(outputDir, serverUrl, serverUrl + "/" + PluginDownloadDir + "/" + file)
         == Some(ArtifactPath(outputDir, file))
  {
    ServedChild(outputDir, serverUrl, PluginDownloadDir, file);
  }

  /** A fragment ends the URL path: what follows it does not reach the file
      server. */
  lemma ServedStopsAtFragment(outputDir: string, serverUrl: string, rel: string, frag: string)
    requires '?' !in rel && '#' !in rel && frag != "" && frag[0] == '#'
    ensures ServedPath(outputDir, serverUrl, serverUrl + "/" + (rel + frag))
         == ServedPath(outputDir, serverUrl, serverUrl + "/" + rel)
  {
    AfterServer(serverUrl, rel + frag);
    AfterServer(serverUrl, rel);
    PathPartStops(rel, frag);
    PathPartStops(rel, "");
    assert rel + "" == rel;
  }

  /** A `#` in a file name ends the URL path: the address of `a#1.jar` is
      served from the file `a`, not from the artifact. */
  lemma FragmentInFileName(outputDir: string, serverUrl: string)
    ensures ServedPath(outputDir, serverUrl, serverUrl + "/" + PluginDownloadDir + "/" + "a#1.jar")
         == Some(ArtifactPath(outputDir, "a"))
    ensures ArtifactPath(outputDir, "a") != ArtifactPath(outputDir, "a#1.jar")
  {
    FragmentServed(outputDir, serverUrl);
    FragmentNotArtifact(outputDir);
  }

  lemma FragmentNotArtifact(outputDir: string)
    ensures ArtifactPath(outputDir, "a") != ArtifactPath(outputDir, "a#1.jar")
  {
    PlainArtifactPath(outputDir, "a");
    PlainArtifactPath(outputDir, "a#1.jar");
    assert |FilesDir(outputDir) + "/" + "a"| != |FilesDir(outputDir) + "/" + "a#1.jar"|;
  }

  lemma FragmentServed(outputDir: string, serverUrl: string)
    ensures ServedPath(outputDir, serverUrl, serverUrl + "/" + PluginDownloadDir + "/" + "a#1.jar")
         == Some(ArtifactPath(outputDir, "a"))
  {
    assert serverUrl + "/" + PluginDownloadDir + "/" + "a#1.jar"
        == serverUrl + "/" + ((PluginDownloadDir + "/a") + "#1.jar");
    assert serverUrl + "/" + PluginDownloadDir + "/" + "a"
        == serverUrl + "/" + (PluginDownloadDir + "/a");
    ServedStopsAtFragment(outputDir, serverUrl, PluginDownloadDir + "/a", "#1.jar");
    PlainNameConfined("a");
    ServedUrlIsArtifact(outputDir, serverUrl, "a");
  }
}

=== FILE: records.dfy ===
/** The records the repository builder reads from its configuration and from
    the plugin catalog, and the entry it keeps per plugin in the manifest map. */
module Records {

  /** Sub-directory of the output tree that receives every artifact; also the
      URL path segment under which the manifest points at them. */
  const PluginDownloadDir: string := "files"

  /** File name of the manifest written at the root of the output tree. */
  const ManifestFileName: string := "updatePlugins.xml"

  /** One byte of an artifact. */
  newtype Byte = x: int | 0 <= x < 256

  /** A plugin supplied by the operator as a local archive. */
  datatype LocalPlugin = LocalPlugin(
    id: string,
    version: string,
    since: string,
    until: string,
    file: string,
    name: string,
    vendor: string,
    vendorEmail: string,
    vendorUrl: string,
    description: string)

  /** The settings read once at start-up. */
  datatype Config = Config(
    serverUrl: string,
    bindIp: string,
    port: string,
    dir: string,
    plugins: seq<string>,
    localPlugins: seq<LocalPlugin>)

  /** The values a configuration file starts from before its own keys are applied. */
  const DefaultConfig: Config :=
    Config("http://localhost:3000", "0.0.0.0", "3000", "out", [], [])

  /** Plugin metadata as the catalog reports it. */
  datatype Plugin = Plugin(id: int, name: string, xmlId: string, description: string)

  /** One published version of a plugin as the catalog reports it. */
  datatype PluginRelease = PluginRelease(
    id: int,
    version: string,
    since: string,
    until: string,
    file: string)

  /** The release recorded in a manifest entry. */
  datatype ReleaseDto = ReleaseDto(
    id: int,
    file: string,
    since: string,
    until: string,
    version: string)

  /** One manifest entry: a plugin together with the single release it publishes. */
  datatype PluginDto = PluginDto(
    id: int,
    name: string,
    xmlId: string,
    description: string,
    vendor: string,
    vendorEmail: string,
    vendorUrl: string,
    release: ReleaseDto)
}

=== FILE: resolver.dfy ===
/** Choosing the one release of a plugin that the repository publishes: the
    release list is sorted by version, greatest first, with Go's string order,
    and the first element is taken. The order is textual, not semantic. */
module Resolver {
  import opened Records
  import opened Outcomes
  import opened VersionOrder

  /** `r` is one of `rs` and no release in `rs` has a greater version. */
  predicate IsLatest(r: PluginRelease, rs: seq<PluginRelease>) {
    r in rs && forall i :: 0 <= i < |rs| ==> AtMost(rs[i].version, r.version)
  }

  /** What sorting with the comparator "version of i > version of j"
      guarantees: no element has a greater version than one before it. The
      sort is not stable, so nothing is promised about equal versions. */
  predicate SortedByVersionDescending(s: seq<PluginRelease>) {
    forall i, j :: 0 <= i < j < |s| ==> !Below(s[i].version, s[j].version)
  }

  /** A greatest release, the earliest one among equal versions; nothing for an empty list. */
  function Latest(rs: seq<PluginRelease>): (r: Option<PluginRelease>)
    ensures r.None? <==> |rs| == 0
    ensures r.Some? ==> r.value in rs
  {
    if |rs| == 0 then None
    else
      var prev := Latest(rs[..|rs| - 1]);
      var last := rs[|rs| - 1];
      if prev.None? || Below(prev.value.version, last.version) then Some(last) else prev
  }

  lemma {:induction false} LatestIsLatest(rs: seq<PluginRelease>)
    requires |rs| > 0
    ensures IsLatest(Latest(rs).value, rs)
  {
    var init := rs[..|rs| - 1];
    var last := rs[|rs| - 1];
    var r := Latest(rs).value;
    if |init| > 0 {
      LatestIsLatest(init);
      var prev := Latest(init).value;
      forall i | 0 <= i < |rs|
        ensures AtMost(rs[i].version, r.version)
      {
        if i < |rs| - 1 {
          assert rs[i] == init[i];
          if Below(prev.version, last.version) {
            AtMostBelowTransitive(rs[i].version, prev.version, last.version);
          }
        } else if !Below(prev.version, last.version) {
          NotBelowIsAtMost(last.version, prev.version);
        }
      }
    }
  }

  /** Among releases of equal greatest version, `Latest` takes the first:
      every release before it has a smaller version. This is the release a
      stable sort puts first, as Go's sort does on lists of at most twelve
      elements, where it falls back to insertion sort. */
  lemma {:induction false} LatestIsFirst(rs: seq<PluginRelease>)
    requires |rs| > 0
    ensures exists k :: 0 <= k < |rs| && rs[k] == Latest(rs).value
                        && forall i :: 0 <= i < k ==> Below(rs[i].version, rs[k].version)
  {
    var n := |rs| - 1;
    if n > 0 {
      var init := rs[..n];
      var last := rs[n];
      LatestIsFirst(init);
      var prev := Latest(init).value;
      if Below(prev.version, last.version) {
        LatestIsLatest(init);
        forall i | 0 <= i < n
          ensures Below(rs[i].version, rs[n].version)
        {
          assert rs[i] == init[i];
          AtMostBelowTransitive(rs[i].version, prev.version, last.version);
        }
        assert rs[n] == Latest(rs).value;
      } else {
        var k :| 0 <= k < n && init[k] == prev
                 && forall i :: 0 <= i < k ==> Below(init[i].version, init[k].version);
        assert forall i :: 0 <= i <= k ==> rs[i] == init[i];
        assert rs[k] == Latest(rs).value;
      }
    } else {
      assert rs[0] == Latest(rs).value;
    }
  }

  /** Selection for one plugin; an empty release list is an error (the
      program indexes the first element and crashes). */
  function Select(pluginId: string, rs: seq<PluginRelease>): (r: Result<PluginRelease>)
    ensures r.Failure? <==> |rs| == 0
    ensures r.Failure? ==> r.error == NoReleasesFound(pluginId)
    ensures r.Success? ==> IsLatest(r.value, rs)
  {
    if |rs| == 0 then Failure(NoReleasesFound(pluginId))
    else
      LatestIsLatest(rs);
      Success(Latest(rs).value)
  }

  /** Two greatest releases of the same list carry the same version: whatever
      order the sort leaves equal versions in, the published version is fixed. */
  lemma LatestVersionIsDetermined(r1: PluginRelease, r2: PluginRelease, rs: seq<PluginRelease>)
    requires IsLatest(r1, rs) && IsLatest(r2, rs)
    ensures r1.version == r2.version
  {
    var i1 :| 0 <= i1 < |rs| && rs[i1] == r1;
    var i2 :| 0 <= i2 < |rs| && rs[i2] == r2;
    assert AtMost(r1.version, r2.version) && AtMost(r2.version, r1.version);
    if r1.version != r2.version {
      BelowAsymmetric(r1.version, r2.version);
    }
  }

  /** The head of any version-descending permutation of the list is a
      greatest release and has the version `Latest` selects. */
  lemma SortedHeadIsLatest(rs: seq<PluginRelease>, sorted: seq<PluginRelease>)
    requires |rs| > 0
    requires multiset(sorted) == multiset(rs)
    requires SortedByVersionDescending(sorted)
    ensures IsLatest(sorted[0], rs)
    ensures sorted[0].version == Latest(rs).value.version
  {
    assert |sorted| == |multiset(rs)| == |rs|;
    assert sorted[0] in multiset(rs);
    forall i | 0 <= i < |rs|
      ensures AtMost(rs[i].version, sorted[0].version)
    {
      assert rs[i] in multiset(sorted);
      var j :| 0 <= j < |sorted| && sorted[j] == rs[i];
      if j > 0 {
        NotBelowIsAtMost(sorted[j].version, sorted[0].version);
      }
    }
    LatestIsLatest(rs);
    LatestVersionIsDetermined(sorted[0], Latest(rs).value, rs);
  }

  function ReleaseWithVersion(version: string): PluginRelease {
    PluginRelease(0, version, "", "", "")
  }

  /** Among "1.0", "2.0" and "10.0" the selected version is "2.0". */
  lemma TextualNotSemanticSelection()
    ensures Select("p", [ReleaseWithVersion("1.0"), ReleaseWithVersion("2.0"), ReleaseWithVersion("10.0")])
         == Success(ReleaseWithVersion("2.0"))
  {
    var rs := [ReleaseWithVersion("1.0"), ReleaseWithVersion("2.0"), ReleaseWithVersion("10.0")];
    assert rs[..2][..1] == [ReleaseWithVersion("1.0")];
    assert rs[..2] == [ReleaseWithVersion("1.0"), ReleaseWithVersion("2.0")];
    TenSortsBeforeTwo();
    BelowAsymmetric("10.0", "2.0");
  }
}

=== FILE: version_order.dfy ===
/** The order in which the builder compares release versions: Go's built-in
    string comparison, which is lexicographic over the bytes of the strings.
    Characters stand for code points here; for well-formed UTF-8 the order of
    code points and the order of their encodings coincide. */
module VersionOrder {

  /** `a` sorts strictly before `b`. */
  predicate Below(a: string, b: string)
    decreases |a|
  {
    if |a| == 0 then |b| > 0
    else if |b| == 0 then false
    else a[0] < b[0] || (a[0] == b[0] && Below(a[1..], b[1..]))
  }

  /** `a` sorts before `b` or equals it. */
  predicate AtMost(a: string, b: string) {
    a == b || Below(a, b)
  }

  lemma {:induction false} BelowIrreflexive(a: string)
    ensures !Below(a, a)
    decreases |a|
  {
    if |a| > 0 {
      BelowIrreflexive(a[1..]);
    }
  }

  lemma {:induction false} BelowAsymmetric(a: string, b: string)
    requires Below(a, b)
    ensures !Below(b, a)
    decreases |a|
  {
    if |a| > 0 && a[0] == b[0] {
      BelowAsymmetric(a[1..], b[1..]);
    }
  }

  lemma {:induction false} BelowTransitive(a: string, b: string, c: string)
    requires Below(a, b) && Below(b, c)
    ensures Below(a, c)
    decreases |a|
  {
    if |a| > 0 && a[0] == b[0] && b[0] == c[0] {
      BelowTransitive(a[1..], b[1..], c[1..]);
    }
  }

  /** Any two different strings are comparable. */
  lemma {:induction false} BelowTotal(a: string, b: string)
    ensures a == b || Below(a, b) || Below(b, a)
    decreases |a|
  {
    if |a| > 0 && |b| > 0 && a[0] == b[0] {
      BelowTotal(a[1..], b[1..]);
      if a[1..] == b[1..] {
        assert a == [a[0]] + a[1..] && b == [b[0]] + b[1..];
      }
    }
  }

  lemma AtMostBelowTransitive(a: string, b: string, c: string)
    requires AtMost(a, b) && Below(b, c)
    ensures Below(a, c)
  {
    if a != b {
      BelowTransitive(a, b, c);
    }
  }

  /** `!(b < a)` is the same as `a <= b`: the complement of the strict order is its reflexive closure. */
  lemma NotBelowIsAtMost(a: string, b: string)
    ensures !Below(b, a) <==> AtMost(a, b)
  {
    BelowTotal(a, b);
    if Below(a, b) {
      BelowAsymmetric(a, b);
    }
    if a == b {
      BelowIrreflexive(a);
    }
  }

  /** Versions are compared as text, not as numbers: "10.0" sorts before "2.0". */
  lemma TenSortsBeforeTwo()
    ensures Below("10.0", "2.0") && Below("1.0", "10.0")
  {
  }
}
